=== FILE: README.md ===
# AIChatBox chat component, modelled in Dafny

AIChatBox is a single React component that talks to three LLM providers:
OpenAI, Anthropic and Google. This project models the component's logic in
Dafny and proves properties of it. Two versions are modelled, each in its
own modules:
- the current component, `src/ChatInterface.jsx`;
- the earlier component, `src/ChatInterface.backup.jsx`.

The current component is modelled in six parts:

- **Provider resolution** (`Providers.Resolve`). A model id is mapped to a
  provider by its prefix: `gpt`, `claude` or `gemini`.
- **Request bodies** (`Providers.BuildOpenAI`, `BuildAnthropic`, `BuildGemini`).
  OpenAI gets the whole history. Anthropic and Google get only the last
  message.
- **The call** (`Dispatch.MakeApiCall`). It resolves the provider, builds the
  body and sends it. The response becomes either a reply or an error text:
  - a network failure or a bad body gives a fixed text;
  - a non-OK status gives the provider's `error.message`, else its
    `message`, else `Status <code>`;
  - an Anthropic envelope that embeds an error raises it;
  - every error ends up behind `API call failed: `.
- **Attachments** (`Attachments`). This covers the allow-list, `processFile`
  (text files read as an ArrayBuffer and also decoded, anything else read
  as a data URL), the batch a file selection keeps, and the images a paste
  adds.
- **The session** (`Session.ChatSession`). This is a class holding the log,
  the draft, the API key, the selected model id and the pending
  attachments. It has the component's handlers; `HandleSubmit` follows the
  pure transition `Session.Submit`.
- **The math tokenizer** (`MathSplit`). `renderMessage` splits a message on
  `$$…$$` / `$…$`, and the model follows leftmost-match semantics. Each
  piece is then classified as display math, inline math or text.

The earlier component (`BackupProviders`, `BackupSession`) differs in these
ways:
- it looks providers up by key;
- it sends the whole history to Anthropic, with `image`/`file` blocks;
- it picks the OpenAI model by whether attachments are pending;
- it reports an error status by its status text alone;
- it accepts only images and PDFs, reading a PDF as an ArrayBuffer;
- it drops the pending attachments before the call.

Some JavaScript semantics are modelled explicitly in `Js`:
- JSON values and truthiness;
- property reads that throw a `TypeError` on `undefined`/`null`, using V8's
  message wording;
- `String(v)` and `new Error(v).message`;
- `trim` with the ECMAScript white-space set;
- `split(',')[1]` on a data URL (section 3 of RFC 2397).

The browser's I/O is replaced by inputs:
- `FileData` holds what `FileReader` and `TextDecoder` would produce;
- `ClipItem` holds what the clipboard hands over;
- `FetchOutcome` is what `fetch` and `response.json()` do.

`Dispatch.Exchange` records whether a request would be sent and with which
body.

## Model

| member | source | states |
|---|---|---|
| Wrappers.MapResults | src/ChatInterface.jsx:136-143 | `atts.map(...)` inside a builder: succeeds iff every element does, keeps order and length, and otherwise fails with the first element's error |
| Js.SecondField | src/ChatInterface.jsx:141 | `s.split(',')[1]` is undefined exactly when `s` has no comma, a string otherwise |
| Js.DataUrlSecondField | src/ChatInterface.jsx:141 | on a data URL `data:<header>,<data>` without further commas, `split(',')[1]` is the data part |
| Js.Trim | src/ChatInterface.jsx:384 | `trim()` is empty exactly when every character is ECMAScript white space; otherwise it starts and ends with a non-space |
| Js.TrimStart | src/ChatInterface.jsx:384 | removes exactly the leading white space |
| Js.TrimEnd | src/ChatInterface.jsx:384 | removes exactly the trailing white space |
| Js.NatToString | src/ChatInterface.jsx:365 | the decimal spelling of the status code: digits only, no leading zero, one digit exactly below ten |
| Js.NatToStringValue | src/ChatInterface.jsx:365 | the digits `Status ${status}` prints read back, left to right, as the status code itself |
| Js.IndexOfFrom | src/ChatInterface.jsx:141 | the first occurrence at or after a position, or none |
| Js.Lookup | src/ChatInterface.jsx:365 | a member read on a parsed object: the value of the last member with that key (as `JSON.parse` keeps the last duplicate), undefined when there is none |
| Js.Get | src/ChatInterface.jsx:122 | `v.name` throws exactly on undefined and null, with V8's message; on an object it reads the member; any other value yields undefined |
| Js.GetOptional | src/ChatInterface.jsx:365 | `v?.name`: undefined on undefined/null, a plain read otherwise |
| Js.At | src/ChatInterface.jsx:122 | `v[i]` throws exactly on undefined and null; arrays and strings are indexed, undefined past their end; an object is read at the key spelled by `i` |
| Js.ErrorMessage | src/ChatInterface.jsx:366 | `new Error(v).message` is the string itself for a string and empty for undefined |
| Js.ToStr | src/ChatInterface.jsx:366 | `String(v)`: a string is itself, an object `[object Object]`, undefined and null their names, booleans `true`/`false`, a number its decimal numeral, an array its joined items |
| Js.JoinPiece | src/ChatInterface.jsx:366 | how `join` prints one element: undefined and null as empty, any other value as `String(v)` |
| Js.JoinItems | src/ChatInterface.jsx:366 | `items.join(',')`: empty for no items, a lone item its printed form, and for two or more the first item's printed form, one comma, then the join of the rest |
| Js.JoinTwoStrings | src/ChatInterface.jsx:366 | joining two strings gives them with exactly one comma between |
| Js.JoinItemsAppend | src/ChatInterface.jsx:366 | appending an element to a non-empty array appends one comma and that element's printed form to the joined text |
| Js.IntToString | src/ChatInterface.jsx:366 | a non-negative number is its decimal numeral; a negative one is `-` followed by the numeral of its magnitude |
| Js.Truthy | src/ChatInterface.jsx:157 | definition only: JavaScript truthiness |
| Js.FalsyValues | src/ChatInterface.jsx:157 | exactly undefined, null, false, 0 and the empty string are falsy; every array and object is truthy |
| Js.StartsWith | src/ChatInterface.jsx:323 | definition only: `s.startsWith(prefix)` |
| Js.EndsWith | src/ChatInterface.jsx:459 | definition only: `s.endsWith(suffix)` |
| Js.StartsEndsWithChars | src/ChatInterface.jsx:459-463 | `startsWith` holds iff the prefix fits and agrees character by character; `endsWith` likewise at the end |
| ChatTypes.Base64Data | src/ChatInterface.jsx:141 | `att.dataUrl.split(',')[1]` succeeds exactly for a data-URL string and throws "is not a function" on a buffer |
| ChatTypes.Without | src/ChatInterface.jsx:217-219 | `filter((_, i) => i !== index)` drops exactly the entry at an in-range index and is the identity otherwise |
| ChatTypes.ShouldSend | src/ChatInterface.jsx:384 | the submit guard holds iff the draft has a non-space character or attachments are pending, and the API key is non-empty |
| ChatTypes.UserMessage | src/ChatInterface.jsx:386-390 | the user entry holds the draft and carries the attachments exactly when some are pending |
| ChatTypes.Answer | src/ChatInterface.jsx:405-416 | a reply becomes an assistant entry with that content, an error a system entry "Error: " + message |
| ChatTypes.PairedExtend | src/ChatInterface.jsx:392-416 | appending a user entry and a non-user entry keeps the log alternating |
| Providers.Resolve | src/ChatInterface.jsx:322-329 | `gpt` gives OpenAI, `claude` Anthropic, `gemini` Google, each iff the prefix matches; any other id gives nothing |
| Providers.PrefixesDisjoint | src/ChatInterface.jsx:322-329 | at most one of the three prefixes matches, so the order of the tests decides nothing |
| Providers.ListedOptionsResolve | src/ChatInterface.jsx:97 | every listed option resolves to its provider except `chatgpt-4o-latest`; that one and the initial `openai` (line 18) resolve to nothing |
| Providers.OpenAIEntry | src/ChatInterface.jsx:100-114 | role copied; plain content without attachments, else a text part followed by one high-detail image part per attachment |
| Providers.BuildOpenAI | src/ChatInterface.jsx:98-116 | one entry per history message in order, model always `gpt-4o`, 4096 tokens |
| Providers.AnthropicSource | src/ChatInterface.jsx:136-143 | an `image` base64 block with the attachment's type and the data after the first comma; throws on a buffer |
| Providers.BuildAnthropic | src/ChatInterface.jsx:127-149 | a single entry from the last message, role user/assistant, the requested model id, 4096 tokens; throws iff an attachment of that message holds a buffer |
| Providers.GeminiInline | src/ChatInterface.jsx:172-177 | an inline-data part with the attachment's type and the data after the first comma; throws on a buffer |
| Providers.BuildGemini | src/ChatInterface.jsx:164-182 | a single content entry from the last message, role user/model, `[{text}]` without attachments |
| Providers.Build | src/ChatInterface.jsx:334 | `generatePrompt` of the resolved provider: the body its builder makes, or the error that builder throws |
| Providers.SingleTurnBodies | src/ChatInterface.jsx:127-182 | the Anthropic and Google bodies do not depend on the earlier history or on the pending attachments |
| Providers.ExtractOpenAI | src/ChatInterface.jsx:122 | `data.choices[0].message.content` throws on a null body or a non-object body |
| Providers.ExtractAnthropic | src/ChatInterface.jsx:156-159 | a truthy `data.error` is thrown with its message whatever else the body holds; a falsy one leaves `data.content[0].text`; a null body throws reading `error` |
| Providers.ExtractGemini | src/ChatInterface.jsx:188 | `data.candidates[0].content.parts[0].text` throws on a null body or a non-object body |
| Providers.AnthropicText | src/ChatInterface.jsx:158 | `data.content[0].text`: a null body throws reading `content`, a non-object one reading `0`, an empty `content` reading `text` |
| Providers.Extract | src/ChatInterface.jsx:375 | `extractResponse` of the resolved provider: each provider's own extractor |
| Providers.OpenAIReplyPath | src/ChatInterface.jsx:122 | on any object body whose `choices[0].message` is an object, the reply is its `content`, whatever other members the body holds |
| Providers.OpenAINoChoices | src/ChatInterface.jsx:122 | an empty `choices` array throws reading `message` of undefined |
| Providers.AnthropicReplyPath | src/ChatInterface.jsx:156-159 | on any object body with a falsy `error` whose `content[0]` is an object, the reply is its `text` |
| Providers.GeminiReplyPath | src/ChatInterface.jsx:188 | on any object body whose `candidates[0].content.parts[0]` is reached through objects and non-empty arrays, the reply is its `text` |
| Dispatch.StatusError | src/ChatInterface.jsx:363-366 | the error text is a truthy `error.message`, else a truthy `message`, else `Status <code>`; a null body throws |
| Dispatch.MessageOrStatus | src/ChatInterface.jsx:365 | the fallback after `error.message`: a truthy `message` gives its text, otherwise `Status <code>`; a null or undefined body throws |
| Dispatch.Receive | src/ChatInterface.jsx:352-375 | network failure and parse failure give their fixed texts, the parse check comes before the status check, and an OK status extracts |
| Dispatch.Wrapped | src/ChatInterface.jsx:376-379 | every error gets the `API call failed: ` prefix; a reply passes through |
| Dispatch.MakeApiCall | src/ChatInterface.jsx:320-380 | a request is sent iff the id resolves and the body builds, carrying that body; an unresolved id gives the wrapped `generatePrompt` read error, a failed build the wrapped builder error, a sent call the wrapped `Receive` result; every error starts with `API call failed: ` |
| Dispatch.UnknownModelIsNotSent | src/ChatInterface.jsx:331-334 | an id with none of the prefixes throws reading `generatePrompt` inside the `try` and sends nothing |
| Dispatch.UnresolvableSelections | src/ChatInterface.jsx:18 | the initial `openai` and the listed `chatgpt-4o-latest` are never sent |
| Dispatch.NetworkFailureText | src/ChatInterface.jsx:352-356 | a rejected `fetch` yields the fixed network text |
| Dispatch.ParseFailureWins | src/ChatInterface.jsx:358-363 | an unparsable body yields the parse text even on an error status |
| Dispatch.StatusErrorPrecedence | src/ChatInterface.jsx:363-366 | the precedence `error.message`, then `message`, then `Status <code>` |
| Dispatch.AnthropicEmbeddedError | src/ChatInterface.jsx:157 | Anthropic raises an embedded error on a success status |
| Dispatch.RateLimitedScenario | src/ChatInterface.jsx:363-379 | a 429 with `{"error":{"message":"rate limited"}}` gives `API call failed: rate limited` |
| Dispatch.SuccessfulReply | src/ChatInterface.jsx:375 | on a success status with a well-shaped body the reply is what the extractor finds |
| Attachments.AllowedTypesClasses | src/ChatInterface.jsx:225-245 | the allow-list is exactly the union of the image, document and media lists |
| Attachments.IsAllowedType | src/ChatInterface.jsx:243-245 | definition only: membership of the flattened allow-list (its classes in `AllowedTypesClasses`) |
| Attachments.ProcessFile | src/ChatInterface.jsx:264-296 | a read error gives "File reading failed"; name, type and size are kept; `text/` files hold a buffer and the decoded content, others a data URL and no content |
| Attachments.Kept | src/ChatInterface.jsx:248-257 | a file contributes its attachment iff its type is allowed and it was read |
| Attachments.Accepted | src/ChatInterface.jsx:247-258 | the kept attachments, never more than the files, all of allowed types |
| Attachments.AcceptedSplits | src/ChatInterface.jsx:247-258 | a selection is handled file by file: a rejected or failing file does not affect the others |
| Attachments.AcceptedSingle | src/ChatInterface.jsx:248-257 | a single file is kept exactly when its type is allowed and it was read |
| Attachments.CollectAttachments | src/ChatInterface.jsx:247-258 | the loop collects exactly `Accepted(files)` |
| Attachments.PastedItem | src/ChatInterface.jsx:427-436 | a clipboard item contributes iff its type starts with `image/`, it yields a file and the file was read |
| Attachments.Pasted | src/ChatInterface.jsx:426-438 | at most one attachment per clipboard item |
| Attachments.PastedSplits | src/ChatInterface.jsx:426-438 | a paste is handled item by item, in order |
| Session.ChatSession.constructor | src/ChatInterface.jsx:15-20 | empty log, empty draft, no key, `openai` selected, no attachments |
| Session.ChatSession.SetInput | src/ChatInterface.jsx:659 | the draft becomes the given text |
| Session.ChatSession.SetApiKey | src/ChatInterface.jsx:485 | the key becomes the given text |
| Session.ChatSession.SelectModel | src/ChatInterface.jsx:490 | the selected model id becomes the given id |
| Session.ChatSession.ClearHistory | src/ChatInterface.jsx:210-215 | a confirmed clear empties the log; otherwise nothing changes |
| Session.ChatSession.RemoveAttachment | src/ChatInterface.jsx:217-219 | pending attachments lose exactly the entry at an in-range index |
| Session.ChatSession.HandleFileSelect | src/ChatInterface.jsx:221-262 | the kept files are appended after the pending attachments |
| Session.ChatSession.HandlePaste | src/ChatInterface.jsx:422-439 | no clipboard items, no change; otherwise the pasted images are appended in order |
| Session.ChatSession.HandleSubmit | src/ChatInterface.jsx:382-420 | nothing changes unless the guard holds; then the state becomes `Submit`'s and the draft is cleared; the log stays alternating |
| Session.Submit | src/ChatInterface.jsx:386-416 | the call runs on the log plus the user entry; the log grows by exactly that entry and a reply entry without attachments (assistant with the reply, or system with "Error: " + message); attachments are cleared iff the call succeeded |
| Session.UnresolvedSubmitKeepsAttachments | src/ChatInterface.jsx:398-416 | with an unresolvable id nothing is sent, an "Error: API call failed: " entry is logged and the attachments stay pending |
| Session.SuccessfulSubmitClearsAttachments | src/ChatInterface.jsx:405-411 | a successful call appends the reply as an assistant entry and clears the attachments |
| Session.TextFileBlocksSingleTurnProviders | src/ChatInterface.jsx:290-291 | a text file is held as a buffer, so a Claude or Gemini submit carrying it throws in the builder, sends nothing and keeps the attachments |
| MathSplit.IndexOfDoubleDollar | src/ChatInterface.jsx:454 | the first `$$` at or after a position, or none |
| MathSplit.MatchesAt | src/ChatInterface.jsx:454 | definition only: the pattern matches at a position |
| MathSplit.MatchesAtDollars | src/ChatInterface.jsx:454 | the pattern matches at `q` iff `s[q]` is `$` and another `$` follows somewhere after it |
| MathSplit.NextMatch | src/ChatInterface.jsx:454 | the leftmost position where the pattern matches, or none, in which case the rest holds at most one `$` |
| MathSplit.MatchEnd | src/ChatInterface.jsx:454 | a match is at least two characters long and ends with `$` |
| MathSplit.MatchEndIsLazy | src/ChatInterface.jsx:454 | both alternatives are lazy (`*?`): `$$` with a later `$$` closes at the first such `$$`, otherwise the match closes at the first `$` after the opening one |
| MathSplit.SplitFrom | src/ChatInterface.jsx:454 | a split has an odd number of pieces: text, match, …, text |
| MathSplit.Split | src/ChatInterface.jsx:454 | the pieces of a whole message: an odd number, and the message itself when it holds no `$` (round trip in `SplitConcat`) |
| MathSplit.ConcatAppend | src/ChatInterface.jsx:454 | concatenating a list of pieces distributes over appending lists |
| MathSplit.SplitFromConcat | src/ChatInterface.jsx:454 | the pieces of the rest of the text concatenate back to it |
| MathSplit.SplitConcat | src/ChatInterface.jsx:454 | the split pieces concatenate back to the original content |
| MathSplit.SplitFromMatches | src/ChatInterface.jsx:454 | every odd-position piece starts and ends with `$` |
| MathSplit.SplitFromTexts | src/ChatInterface.jsx:454 | every even-position piece before the last holds no `$` |
| MathSplit.SplitFromLast | src/ChatInterface.jsx:454 | the final piece holds at most one `$` |
| MathSplit.SplitShape | src/ChatInterface.jsx:454 | the three shape facts together for a whole message |
| MathSplit.Slice | src/ChatInterface.jsx:461 | `slice(start, end)` with a negative end counted from the string's end: the substring between the two positions, empty when they cross |
| MathSplit.Classify | src/ChatInterface.jsx:459-470 | display math iff the piece starts and ends with `$$`, with the `$$` stripped; else inline math iff it starts and ends with `$`, with the `$` stripped; else the text itself |
| MathSplit.Render | src/ChatInterface.jsx:450-470 | nothing for empty content; otherwise one classified segment per split piece, in order |
| MathSplit.RenderPlainText | src/ChatInterface.jsx:451-469 | text without `$` renders as one text segment |
| MathSplit.RenderInline | src/ChatInterface.jsx:454-466 | `a$m$b` renders as text `a`, inline math `m`, text `b` |
| MathSplit.RenderDisplay | src/ChatInterface.jsx:454-462 | `a$$m$$b` renders as text `a`, display math `m`, text `b` |
| MathSplit.ClassifyInline | src/ChatInterface.jsx:463-466 | `$m$` with a non-empty, `$`-free `m` is inline math `m` |
| MathSplit.ClassifyDisplay | src/ChatInterface.jsx:459-462 | `$$m$$` is display math `m` |
| MathSplit.RenderTwoInline | src/ChatInterface.jsx:454-466 | `a$m1$b$m2$c` renders as five segments: each formula closes at its own `$`, so `b` stays text |
| BackupProviders.ProviderFor | src/ChatInterface.backup.jsx:157 | `models[key]` finds OpenAI for `openai`, Anthropic for `anthropic`, and nothing for any other key |
| BackupProviders.SelectableKeysResolve | src/ChatInterface.backup.jsx:227-234 | every key the selector offers, and the initial `openai` (line 8), finds a provider |
| BackupProviders.BuildOpenAI | src/ChatInterface.backup.jsx:35-53 | one entry per history message; `gpt-4-vision-preview` iff attachments are pending, else `gpt-4`; 2048 tokens |
| BackupProviders.OpenAIMessagesAgree | src/ChatInterface.backup.jsx:36-50 | the message list equals the current component's; only model id and token limit differ |
| BackupProviders.SourceFor | src/ChatInterface.backup.jsx:70-77 | an `image` block iff the type starts with `image`, else a `file` block; throws on a buffer |
| BackupProviders.AnthropicEntry | src/ChatInterface.backup.jsx:65-80 | role user/assistant; plain content, or a text block followed by one block per attachment |
| BackupProviders.BuildAnthropic | src/ChatInterface.backup.jsx:64-83 | one entry per history message, `claude-3-opus`, 1024 tokens; throws iff any attachment anywhere in the history holds a buffer |
| BackupProviders.Build | src/ChatInterface.backup.jsx:161 | `generatePrompt` of the provider found by key |
| BackupProviders.Extract | src/ChatInterface.backup.jsx:59-90 | OpenAI reads the same path as the current component; Anthropic reads `content[0].text` without checking for an error |
| BackupProviders.EmbeddedErrorIgnored | src/ChatInterface.backup.jsx:90 | an Anthropic error envelope yields a read error here, where the current component raises the message |
| BackupProviders.AnthropicExtractorsAgree | src/ChatInterface.backup.jsx:90 | on a body without a truthy `error` the two components' Anthropic extractors give the same result |
| BackupProviders.Receive | src/ChatInterface.backup.jsx:158-169 | a rejection passes its own message; an error status gives `API call failed: ` + status text before the body is read; an unparsable body gives the parse error |
| BackupProviders.MakeApiCall | src/ChatInterface.backup.jsx:156-170 | an unknown key throws reading `endpoint`; a request is sent iff the body builds; builder errors pass through unwrapped |
| BackupProviders.StatusTextOnly | src/ChatInterface.backup.jsx:164-166 | the result on an error status does not depend on the body |
| BackupProviders.ModelIdIsNotAKey | src/ChatInterface.backup.jsx:157 | a model id such as `gpt-4o` is not a key, so the call throws before sending |
| BackupSession.ProcessFile | src/ChatInterface.backup.jsx:113-150 | a read error gives "File reading failed"; a PDF holds a buffer, anything else a data URL; no content is extracted |
| BackupSession.Selectable | src/ChatInterface.backup.jsx:99 | definition only: an `image/` type or `application/pdf` |
| BackupSession.Kept | src/ChatInterface.backup.jsx:99-105 | a file contributes iff it is an image or a PDF and it was read |
| BackupSession.Accepted | src/ChatInterface.backup.jsx:98-107 | the kept attachments in selection order, never more than the files, all images or PDFs |
| BackupSession.AcceptedSplits | src/ChatInterface.backup.jsx:98-107 | a selection is handled file by file in order: a skipped or failing file does not affect the others |
| BackupSession.AcceptedSingle | src/ChatInterface.backup.jsx:99-105 | a single file is kept exactly when it is an image or a PDF and it was read |
| BackupSession.CollectAttachments | src/ChatInterface.backup.jsx:98-107 | the loop collects exactly `Accepted(files)` |
| BackupSession.Submit | src/ChatInterface.backup.jsx:176-203 | the call runs on the log plus the user entry with the pending attachments; the log grows by two entries; no attachments remain |
| BackupSession.BackupChatSession.constructor | src/ChatInterface.backup.jsx:5-10 | empty log, empty draft, no key, `openai` selected, no attachments |
| BackupSession.BackupChatSession.SetInput | src/ChatInterface.backup.jsx:342 | the draft becomes the given text |
| BackupSession.BackupChatSession.SetApiKey | src/ChatInterface.backup.jsx:224 | the key becomes the given text |
| BackupSession.BackupChatSession.SelectModel | src/ChatInterface.backup.jsx:229 | the selected key becomes the given key |
| BackupSession.BackupChatSession.ClearHistory | src/ChatInterface.backup.jsx:209-213 | a confirmed clear empties the log; otherwise nothing changes |
| BackupSession.BackupChatSession.RemoveAttachment | src/ChatInterface.backup.jsx:152-154 | pending attachments lose exactly the entry at an in-range index |
| BackupSession.BackupChatSession.HandleFileSelect | src/ChatInterface.backup.jsx:94-111 | the kept files are appended after the pending attachments |
| BackupSession.BackupChatSession.HandleSubmit | src/ChatInterface.backup.jsx:172-207 | nothing changes unless the guard holds; then the state becomes `Submit`'s and the attachments are gone whatever the outcome |
| BackupSession.PdfBlocksAnthropic | src/ChatInterface.backup.jsx:144-145 | a PDF is held as a buffer, and once in the history every Anthropic body throws and nothing is sent |
| BackupSession.SelectableTypes | src/ChatInterface.backup.jsx:99 | images and PDFs are selectable; text, audio and video types are not |
| BackupSession.FailedSubmitAttachments | src/ChatInterface.backup.jsx:184 | after a failed call the current component keeps the pending attachments and this one has dropped them |

## Left out

- Browser I/O is replaced by inputs: `fetch`, `response.json()`, `FileReader`, `TextDecoder` and the clipboard. UTF-8 decoding and base64 encoding are not modelled, and the decoded text and data URL of a file are given.
- `localStorage` loading and saving (src/ChatInterface.jsx:193-208, src/ChatInterface.backup.jsx:14-29) is not modelled. So a session always starts empty, and a log restored from storage is not required to alternate.
- Request headers, endpoint URLs and the API key sent in them are left out: they are constants with no behaviour. `Dispatch.MakeApiCall` and `BackupProviders.MakeApiCall` take no key, and the two components' headers are not compared.
- The `isLoading` flag, React's asynchronous state updates and the snapshot semantics of `messages` are not modelled. A submit is one atomic step, and handlers cannot interleave.
- The clipboard copy helpers, textarea resizing, `console` logging, `setTimeout`, the JSX and KaTeX rendering are not modelled. Resetting the file input's value is not modelled either.
- Error texts use V8's wording (`Cannot read properties of undefined (reading 'x')`, `att.dataUrl.split is not a function`). Other engines word these TypeErrors differently.
- Js.Lookup: object members come only from the parsed body. Properties inherited from `Object.prototype`, such as a key `constructor` in `models[key]`, are not modelled.
- Js.Value: numbers are integers, so floating-point values in a response are not modelled. `String(v)` of a non-integer number is outside the model.
- Providers.ExtractOpenAI: the contract itself states only the error cases of a null or non-object body; the success path over any object body is `Providers.OpenAIReplyPath`, and paths that break part-way (a missing `message`, a non-object first choice) are left to the function's definition.
- Providers.ExtractGemini: the contract itself states only the error cases of a null or non-object body; the success path over any object body is `Providers.GeminiReplyPath`, and paths that break part-way are left to the function's definition.
- MathSplit.Render: strings are sequences of characters rather than UTF-16 code units. A non-string message content (an assistant reply that is an object) is not rendered by the model.
- JSON serialisation of a request body is not modelled. For example, a buffer in an OpenAI `image_url` serialises as `{}`, but the model keeps the buffer itself.
- `public/electron.js`, `scripts/copy-electron.js` and `src/ChatInterface copy.jsx` are not part of this model.

=== FILE: attachments.dfy ===
/** Attachment ingestion of the current chat component: the allow-list of
    MIME types, `processFile`, the batch that a file selection keeps, and
    the attachments a paste adds. */
module Attachments {
  import opened Wrappers
  import opened Js
  import opened ChatTypes

  const ImageTypes: seq<string> := ["image/jpeg", "image/png", "image/gif", "image/webp"]

  const DocumentTypes: seq<string> := [
    "application/pdf",
    "text/plain",
    "text/markdown",
    "application/x-tex",
    "application/vnd.openxmlformats-officedocument.wordprocessingml.document",
    "application/vnd.openxmlformats-officedocument.presentationml.presentation"
  ]

  const MediaTypes: seq<string> := ["audio/mpeg", "audio/wav", "video/mp4", "video/webm"]

  /** `Object.values(allowedTypes).flat()`. */
  const AllowedTypes: seq<string> := ImageTypes + DocumentTypes + MediaTypes

  predicate IsAllowedType(mimeType: string) {
    mimeType in AllowedTypes
  }

  /** The allow-list is the union of its three classes. */
  lemma AllowedTypesClasses(mimeType: string)
    ensures IsAllowedType(mimeType) <==>
              mimeType in ImageTypes || mimeType in DocumentTypes || mimeType in MediaTypes
  {
  }

  const ReadFailedText := "File reading failed"

  /** `processFile`: text files are read as an ArrayBuffer and also decoded;
      every other file is read as a data URL. */
  function ProcessFile(f: FileData): (r: Result<Attachment>)
    ensures r.Ok? <==> f.contents.Some?
    ensures r.Err? ==> r.error == ReadFailedText
    ensures r.Ok? ==> r.value.name == f.name && r.value.mimeType == f.mimeType && r.value.size == f.size
    ensures r.Ok? ==> (r.value.content.Some? <==> StartsWith(f.mimeType, "text/"))
    ensures r.Ok? && StartsWith(f.mimeType, "text/") ==>
              r.value.data == Buffer(f.contents.value.bytes) && r.value.content == Some(f.contents.value.decoded)
    ensures r.Ok? && !StartsWith(f.mimeType, "text/") ==> r.value.data == DataUrl(f.contents.value.dataUrl)
  {
    match f.contents
    case None => Err(ReadFailedText)
    case Some(c) =>
      if StartsWith(f.mimeType, "text/") then
        Ok(Attachment(f.name, f.mimeType, Buffer(c.bytes), f.size, Some(c.decoded)))
      else
        Ok(Attachment(f.name, f.mimeType, DataUrl(c.dataUrl), f.size, None))
  }

  /** What one selected file contributes: its attachment when its type is
      allowed and it was read, nothing otherwise. */
  function Kept(f: FileData): (r: seq<Attachment>)
    ensures |r| <= 1
    ensures |r| == 1 <==> IsAllowedType(f.mimeType) && f.contents.Some?
    ensures |r| == 1 ==> Ok(r[0]) == ProcessFile(f)
  {
    if IsAllowedType(f.mimeType) then
      match ProcessFile(f)
      case Ok(att) => [att]
      case Err(_) => []
    else []
  }

  /** The attachments a selection of `files` adds, in selection order. */
  function Accepted(files: seq<FileData>): (r: seq<Attachment>)
    ensures |r| <= |files|
    ensures forall i :: 0 <= i < |r| ==> IsAllowedType(r[i].mimeType)
  {
    if files == [] then [] else Accepted(files[..|files| - 1]) + Kept(files[|files| - 1])
  }

  /** A selection is handled file by file: a rejected or unreadable file
      neither stops nor changes what the other files contribute. */
  lemma {:induction false} AcceptedSplits(a: seq<FileData>, b: seq<FileData>)
    ensures Accepted(a + b) == Accepted(a) + Accepted(b)
    decreases |b|
  {
    if b == [] {
      assert a + b == a;
    } else {
      var front := b[..|b| - 1];
      assert (a + b)[..|a + b| - 1] == a + front;
      assert (a + b)[|a + b| - 1] == b[|b| - 1];
      AcceptedSplits(a, front);
    }
  }

  /** A single file is kept exactly when its type is allowed and it was read. */
  lemma AcceptedSingle(f: FileData)
    ensures Accepted([f]) == Kept(f)
    ensures Accepted([f]) != [] <==> IsAllowedType(f.mimeType) && f.contents.Some?
  {
    assert [f][..0] == [];
  }

  /** The loop of `handleFileSelect`, pushing each kept file's attachment. */
  method CollectAttachments(files: seq<FileData>) returns (added: seq<Attachment>)
    ensures added == Accepted(files)
  {
    added := [];
    var i := 0;
    while i < |files|
      invariant 0 <= i <= |files|
      invariant added == Accepted(files[..i])
    {
      var file := files[i];
      if IsAllowedType(file.mimeType) {
        var processed := ProcessFile(file);
        if processed.Ok? {
          added := added + [processed.value];
        }
      }
      assert files[..i + 1][..i] == files[..i];
      i := i + 1;
    }
    assert files[..i] == files;
  }

  /** What one clipboard item contributes to a paste: any `image/` item
      that yields a readable file, whether or not its type is on the
      selection allow-list. */
  function PastedItem(item: ClipItem): (r: seq<Attachment>)
    ensures |r| <= 1
    ensures |r| == 1 <==> StartsWith(item.mimeType, "image/") && item.file.Some? && item.file.value.contents.Some?
    ensures |r| == 1 ==> Ok(r[0]) == ProcessFile(item.file.value)
  {
    if StartsWith(item.mimeType, "image/") && item.file.Some? then
      match ProcessFile(item.file.value)
      case Ok(att) => [att]
      case Err(_) => []
    else []
  }

  /** The attachments a paste of `items` appends, in clipboard order. */
  function Pasted(items: seq<ClipItem>): (r: seq<Attachment>)
    ensures |r| <= |items|
  {
    if items == [] then [] else Pasted(items[..|items| - 1]) + PastedItem(items[|items| - 1])
  }

  lemma {:induction false} PastedSplits(a: seq<ClipItem>, b: seq<ClipItem>)
    ensures Pasted(a + b) == Pasted(a) + Pasted(b)
    decreases |b|
  {
    if b == [] {
      assert a + b == a;
    } else {
      var front := b[..|b| - 1];
      assert (a + b)[..|a + b| - 1] == a + front;
      assert (a + b)[|a + b| - 1] == b[|b| - 1];
      PastedSplits(a, front);
    }
  }
}

=== FILE: backup_providers.dfy ===
/** The provider table and `makeApiCall` of the earlier chat component.
    There the selection holds a provider key, not a model id; both bodies
    carry the whole history; the call has no `try`, so errors leave it as
    they were thrown, and an error status is reported by its status text
    without reading the body. */
module BackupProviders {
  import opened Wrappers
  import opened Js
  import opened ChatTypes
  import opened Providers
  import opened Dispatch

  /** The keys of the provider table, in the order the selector lists them. */
  const Keys: seq<string> := ["openai", "anthropic"]

  /** `models[model]`: a table lookup by key. */
  function ProviderFor(key: string): (p: Option<Provider>)
    ensures p == Some(OpenAI) <==> key == "openai"
    ensures p == Some(Anthropic) <==> key == "anthropic"
    ensures p != Some(Gemini)
    ensures p.None? <==> key !in Keys
  {
    if key == "openai" then Some(OpenAI)
    else if key == "anthropic" then Some(Anthropic)
    else None
  }

  /** Every key the selector offers finds its provider, and the component
      starts on one of them. */
  lemma SelectableKeysResolve(i: nat)
    requires i < |Keys|
    ensures ProviderFor(Keys[i]).Some?
    ensures ProviderFor(InitialModel) == Some(OpenAI)
  {
  }

  // ------------------------------------------------------------------ OpenAI

  /** The OpenAI body: one entry per history message, as in the current
      component; the vision model when attachments are pending, else gpt-4. */
  function BuildOpenAI(history: seq<Message>, pending: seq<Attachment>): (b: OpenAIBody)
    ensures b.model == (if |pending| > 0 then "gpt-4-vision-preview" else "gpt-4")
    ensures b.maxTokens == 2048
    ensures |b.messages| == |history|
    ensures forall i :: 0 <= i < |history| ==> b.messages[i] == OpenAIEntry(history[i])
  {
    OpenAIBody(
      if |pending| > 0 then "gpt-4-vision-preview" else "gpt-4",
      seq(|history|, i requires 0 <= i < |history| => OpenAIEntry(history[i])),
      2048)
  }

  /** The two components send the same OpenAI message list; only the model
      id and the token limit differ. */
  lemma OpenAIMessagesAgree(history: seq<Message>, pending: seq<Attachment>)
    ensures BuildOpenAI(history, pending).messages == Providers.BuildOpenAI(history, pending).messages
    ensures Providers.BuildOpenAI(history, pending).model == "gpt-4o"
    ensures BuildOpenAI(history, pending).maxTokens < Providers.BuildOpenAI(history, pending).maxTokens
  {
    var older := BuildOpenAI(history, pending).messages;
    var newer := Providers.BuildOpenAI(history, pending).messages;
    assert |older| == |newer|;
    forall i | 0 <= i < |older|
      ensures older[i] == newer[i]
    {
      var e := OpenAIEntry(history[i]);
      assert older[i] == e;
      assert newer[i].role == e.role;
      match history[i].attachments
      case None =>
      case Some(atts) =>
        var p := newer[i].content.parts;
        assert |p| == |e.content.parts|;
        assert forall j :: 0 <= j < |p| ==> p[j] == e.content.parts[j] by {
          forall j | 0 <= j < |p| ensures p[j] == e.content.parts[j] {
            if j > 0 {
              assert p[j] == ImageUrlPart(atts[j - 1].data, "high");
            }
          }
        }
        assert p == e.content.parts;
    }
  }

  // --------------------------------------------------------------- Anthropic

  /** One attachment block: an `image` block for a type that starts with
      `image`, a `file` block otherwise; `dataUrl.split` throws on a buffer. */
  function SourceFor(att: Attachment): (r: Result<AnthropicBlock>)
    ensures r.Ok? <==> att.data.DataUrl?
    ensures r.Err? ==> r.error == SplitNotAFunction
    ensures r.Ok? ==> r.value.SourceBlock? && r.value.sourceType == "base64"
                      && r.value.mediaType == att.mimeType && r.value.data == SecondField(att.data.url)
    ensures r.Ok? ==> (r.value.kind == "image" <==> StartsWith(att.mimeType, "image"))
    ensures r.Ok? ==> (r.value.kind == "file" <==> !StartsWith(att.mimeType, "image"))
  {
    var data :- Base64Data(att);
    Ok(SourceBlock(if StartsWith(att.mimeType, "image") then "image" else "file", "base64", att.mimeType, data))
  }

  /** One history message as an Anthropic entry. */
  function AnthropicEntry(msg: Message): (r: Result<AnthropicMessage>)
    ensures r.Ok? <==> AllDataUrls(msg)
    ensures r.Err? ==> r.error == SplitNotAFunction
    ensures r.Ok? ==> r.value.role == AnthropicRole(msg.role)
    ensures r.Ok? && msg.attachments.None? ==> r.value.content == PlainText(msg.content)
    ensures r.Ok? && msg.attachments.Some? ==>
              && r.value.content.Blocks?
              && |r.value.content.blocks| == |msg.attachments.value| + 1
              && r.value.content.blocks[0] == TextBlock(msg.content)
              && forall j :: 0 <= j < |msg.attachments.value| ==>
                   Ok(r.value.content.blocks[j + 1]) == SourceFor(msg.attachments.value[j])
  {
    match msg.attachments
    case None => Ok(AnthropicMessage(AnthropicRole(msg.role), PlainText(msg.content)))
    case Some(atts) =>
      var blocks :- MapResults(atts, SourceFor);
      Ok(AnthropicMessage(AnthropicRole(msg.role), Blocks([TextBlock(msg.content)] + blocks)))
  }

  /** The Anthropic body: one entry per history message. A single attachment
      anywhere in the history that holds a buffer makes it throw. */
  function BuildAnthropic(history: seq<Message>): (r: Result<AnthropicBody>)
    ensures r.Ok? <==> forall i :: 0 <= i < |history| ==> AllDataUrls(history[i])
    ensures r.Err? ==> r.error == SplitNotAFunction
    ensures r.Ok? ==> r.value.model == "claude-3-opus" && r.value.maxTokens == 1024
    ensures r.Ok? ==> |r.value.messages| == |history|
    ensures r.Ok? ==> forall i :: 0 <= i < |history| ==> Ok(r.value.messages[i]) == AnthropicEntry(history[i])
  {
    var entries :- MapResults(history, AnthropicEntry);
    Ok(AnthropicBody("claude-3-opus", entries, 1024))
  }

  /** `generatePrompt` of the provider found by key. */
  function Build(p: Provider, history: seq<Message>, pending: seq<Attachment>): (r: Result<RequestBody>)
    requires p != Gemini
    ensures p == OpenAI ==> r == Ok(OpenAIRequest(BuildOpenAI(history, pending)))
    ensures p == Anthropic ==> (r.Ok? <==> BuildAnthropic(history).Ok?)
    ensures p == Anthropic && r.Ok? ==> r.value == AnthropicRequest(BuildAnthropic(history).value)
    ensures r.Err? ==> r.error == SplitNotAFunction
  {
    match p
    case OpenAI => Ok(OpenAIRequest(BuildOpenAI(history, pending)))
    case Anthropic =>
      var b :- BuildAnthropic(history);
      Ok(AnthropicRequest(b))
  }

  // -------------------------------------------------------------- extractors

  /** `extractResponse`: the same paths as the current component, but the
      Anthropic one does not look at an embedded `error`. */
  function Extract(p: Provider, data: Value): (r: Result<Value>)
    requires p != Gemini
    ensures p == OpenAI ==> r == ExtractOpenAI(data)
    ensures p == Anthropic ==> r == AnthropicText(data)
    ensures p == Anthropic && data.Null? ==> r == Err(ReadError("null", "content"))
  {
    match p
    case OpenAI => ExtractOpenAI(data)
    case Anthropic => AnthropicText(data)
  }

  /** An Anthropic error envelope with a success status is not an error
      here: the extractor reads `content` and finds nothing. */
  lemma EmbeddedErrorIgnored(message: string)
    ensures Extract(Anthropic, Obj([("error", Obj([("message", Str(message))]))]))
            == Err(ReadError("undefined", "0"))
    ensures Providers.ExtractAnthropic(Obj([("error", Obj([("message", Str(message))]))])) == Err(message)
  {
    var inner := Obj([("message", Str(message))]);
    var data := Obj([("error", inner)]);
    assert Lookup(data.fields, "content") == Undefined;
    assert Lookup(data.fields, "error") == inner;
    assert GetOptional(inner, "message") == Str(message);
  }

  /** On a body without a truthy `error` the two components' Anthropic
      extractors agree: both read `content[0].text`. */
  lemma AnthropicExtractorsAgree(fields: seq<(string, Value)>)
    requires !Truthy(Lookup(fields, "error"))
    ensures Extract(Anthropic, Obj(fields)) == Providers.ExtractAnthropic(Obj(fields))
  {
  }

  // --------------------------------------------------------------- the call

  /** What happens once the request is on its way: the status is checked
      before the body is read. */
  function Receive(p: Provider, outcome: FetchOutcome): (r: Result<Value>)
    requires p != Gemini
    ensures outcome.NetworkFailure? ==> r == Err(outcome.reason)
    ensures outcome.Response? && !IsOkStatus(outcome.status) ==> r == Err(CallFailedPrefix + outcome.statusText)
    ensures outcome.Response? && IsOkStatus(outcome.status) && outcome.body.Unparsable? ==>
              r == Err(outcome.body.syntaxError)
    ensures outcome.Response? && IsOkStatus(outcome.status) && outcome.body.Parsed? ==>
              r == Extract(p, outcome.body.data)
  {
    match outcome
    case NetworkFailure(reason) => Err(reason)
    case Response(status, statusText, body) =>
      if !IsOkStatus(status) then Err(CallFailedPrefix + statusText)
      else
        match body
        case Unparsable(syntaxError) => Err(syntaxError)
        case Parsed(data) => Extract(p, data)
  }

  /** `makeApiCall(model, key, messageHistory, currentAttachments)`, where
      `key` is the selected provider key. */
  function MakeApiCall(key: string, history: seq<Message>, pending: seq<Attachment>,
                       outcome: FetchOutcome): (x: Exchange)
    ensures ProviderFor(key).None? ==> x == Exchange(None, Err(ReadError("undefined", "endpoint")))
    ensures ProviderFor(key).Some? ==>
              var p := ProviderFor(key).value;
              && (x.sent.Some? <==> Build(p, history, pending).Ok?)
              && (x.sent.Some? ==> x.sent.value == Request(p, Build(p, history, pending).value)
                                   && x.result == Receive(p, outcome))
              && (x.sent.None? ==> x.result == Err(SplitNotAFunction))
  {
    match ProviderFor(key)
    case None => Exchange(None, Err(ReadError("undefined", "endpoint")))
    case Some(p) =>
      match Build(p, history, pending)
      case Err(e) => Exchange(None, Err(e))
      case Ok(body) => Exchange(Some(Request(p, body)), Receive(p, outcome))
  }

  /** An error status is reported by its status text alone, whatever the
      body says. */
  lemma StatusTextOnly(key: string, history: seq<Message>, pending: seq<Attachment>,
                       status: nat, statusText: string, body1: Body, body2: Body)
    requires ProviderFor(key).Some? && !IsOkStatus(status)
    ensures MakeApiCall(key, history, pending, Response(status, statusText, body1))
            == MakeApiCall(key, history, pending, Response(status, statusText, body2))
  {
  }

  /** A model id kept from the current component (such as `gpt-4o`) is not
      a key of this table: the call throws before anything is sent. */
  lemma ModelIdIsNotAKey(history: seq<Message>, pending: seq<Attachment>, outcome: FetchOutcome)
    ensures MakeApiCall("gpt-4o", history, pending, outcome)
            == Exchange(None, Err("Cannot read properties of undefined (reading 'endpoint')"))
  {
    var id := "gpt-4o";
    assert id[0] != "openai"[0] && id[0] != "anthropic"[0];
    assert ProviderFor(id).None?;
    EndpointErrorText();
  }

  /** The text V8 gives for reading `endpoint` of undefined. */
  lemma EndpointErrorText()
    ensures ReadError("undefined", "endpoint") == "Cannot read properties of undefined (reading 'endpoint')"
  {
  }
}

=== FILE: backup_session.dfy ===
/** Attachment ingestion and the state of the earlier chat component. It
    accepts images and PDFs only, reads a PDF as an ArrayBuffer, has no
    paste handler, and drops the pending attachments as soon as a submit
    passes the guard, whatever the call then does. */
module BackupSession {
  import opened Wrappers
  import opened Js
  import opened ChatTypes
  import opened Providers
  import opened Dispatch
  import Attachments
  import Session
  import BackupProviders

  const PdfType := "application/pdf"

  /** The file filter of `handleFileSelect`. */
  predicate Selectable(mimeType: string) {
    StartsWith(mimeType, "image/") || mimeType == PdfType
  }

  /** `processFile`: a PDF is read as an ArrayBuffer, anything else as a
      data URL; no text is extracted. */
  function ProcessFile(f: FileData): (r: Result<Attachment>)
    ensures r.Ok? <==> f.contents.Some?
    ensures r.Err? ==> r.error == Attachments.ReadFailedText
    ensures r.Ok? ==> r.value.name == f.name && r.value.mimeType == f.mimeType && r.value.size == f.size
    ensures r.Ok? ==> r.value.content.None?
    ensures r.Ok? ==> (r.value.data.Buffer? <==> f.mimeType == PdfType)
    ensures r.Ok? && f.mimeType == PdfType ==> r.value.data == Buffer(f.contents.value.bytes)
    ensures r.Ok? && f.mimeType != PdfType ==> r.value.data == DataUrl(f.contents.value.dataUrl)
  {
    match f.contents
    case None => Err(Attachments.ReadFailedText)
    case Some(c) =>
      var data := if f.mimeType == PdfType then Buffer(c.bytes) else DataUrl(c.dataUrl);
      Ok(Attachment(f.name, f.mimeType, data, f.size, None))
  }

  /** What one selected file contributes. */
  function Kept(f: FileData): (r: seq<Attachment>)
    ensures |r| <= 1
    ensures |r| == 1 <==> Selectable(f.mimeType) && f.contents.Some?
    ensures |r| == 1 ==> Ok(r[0]) == ProcessFile(f)
  {
    if Selectable(f.mimeType) then
      match ProcessFile(f)
      case Ok(att) => [att]
      case Err(_) => []
    else []
  }

  /** The attachments a selection of `files` adds, in selection order. */
  function Accepted(files: seq<FileData>): (r: seq<Attachment>)
    ensures |r| <= |files|
    ensures forall i :: 0 <= i < |r| ==> Selectable(r[i].mimeType)
  {
    if files == [] then [] else Accepted(files[..|files| - 1]) + Kept(files[|files| - 1])
  }

  /** A selection is handled file by file, in order: a skipped or unreadable
      file does not change what the others contribute. */
  lemma {:induction false} AcceptedSplits(a: seq<FileData>, b: seq<FileData>)
    ensures Accepted(a + b) == Accepted(a) + Accepted(b)
    decreases |b|
  {
    if b == [] {
      assert a + b == a;
    } else {
      var front := b[..|b| - 1];
      assert (a + b)[..|a + b| - 1] == a + front;
      assert (a + b)[|a + b| - 1] == b[|b| - 1];
      AcceptedSplits(a, front);
    }
  }

  /** A single file is kept exactly when it is an image or a PDF and it was read. */
  lemma AcceptedSingle(f: FileData)
    ensures Accepted([f]) == Kept(f)
    ensures Accepted([f]) != [] <==> Selectable(f.mimeType) && f.contents.Some?
  {
    assert [f][..0] == [];
  }

  /** The loop of `handleFileSelect`. */
  method CollectAttachments(files: seq<FileData>) returns (added: seq<Attachment>)
    ensures added == Accepted(files)
  {
    added := [];
    var i := 0;
    while i < |files|
      invariant 0 <= i <= |files|
      invariant added == Accepted(files[..i])
    {
      var file := files[i];
      if StartsWith(file.mimeType, "image/") || file.mimeType == PdfType {
        var processed := ProcessFile(file);
        if processed.Ok? {
          added := added + [processed.value];
        }
      }
      assert files[..i + 1][..i] == files[..i];
      i := i + 1;
    }
    assert files[..i] == files;
  }

  /** The submit transition of this component: the pending attachments go
      with the user entry and the call, and are gone afterwards either way. */
  function Submit(key: string, log: seq<Message>, draft: string, pending: seq<Attachment>,
                  outcome: FetchOutcome): (s: Session.Submission)
    ensures s.exchange == BackupProviders.MakeApiCall(key, log + [UserMessage(draft, pending)], pending, outcome)
    ensures |s.log| == |log| + 2 && s.log[..|log|] == log
    ensures s.log[|log|] == UserMessage(draft, pending)
    ensures s.log[|log| + 1] == Answer(s.exchange.result)
    ensures Paired(log) ==> Paired(s.log)
    ensures s.pending == []
  {
    var question := UserMessage(draft, pending);
    var exchange := BackupProviders.MakeApiCall(key, log + [question], pending, outcome);
    var answer := Answer(exchange.result);
    assert Paired(log) ==> Paired(log + [question, answer]) by {
      if Paired(log) {
        PairedExtend(log, question, answer);
      }
    }
    assert (log + [question, answer])[..|log|] == log;
    Session.Submission(exchange, log + [question, answer], [])
  }

  class BackupChatSession {
    var messages: seq<Message>
    var input: string
    var apiKey: string
    var selectedModel: string
    var attachments: seq<Attachment>

    ghost predicate Valid()
      reads this
    {
      Paired(messages)
    }

    /** The initial state: empty log, empty draft, no key, the `openai` key selected. */
    constructor()
      ensures messages == [] && input == "" && apiKey == "" && attachments == []
      ensures selectedModel == InitialModel
      ensures Valid()
    {
      messages := [];
      input := "";
      apiKey := "";
      selectedModel := InitialModel;
      attachments := [];
    }

    method SetInput(text: string)
      modifies this`input
      ensures input == text
    {
      input := text;
    }

    method SetApiKey(key: string)
      modifies this`apiKey
      ensures apiKey == key
    {
      apiKey := key;
    }

    method SelectModel(key: string)
      modifies this`selectedModel
      ensures selectedModel == key
    {
      selectedModel := key;
    }

    /** `clearHistory`; `confirmed` is the user's answer to the confirmation dialog. */
    method ClearHistory(confirmed: bool)
      requires Valid()
      modifies this`messages
      ensures messages == (if confirmed then [] else old(messages))
      ensures Valid()
    {
      if confirmed {
        messages := [];
      }
    }

    method RemoveAttachment(index: int)
      modifies this`attachments
      ensures attachments == Without(old(attachments), index)
    {
      attachments := Without(attachments, index);
    }

    method HandleFileSelect(files: seq<FileData>)
      modifies this`attachments
      ensures attachments == old(attachments) + Accepted(files)
    {
      var added := CollectAttachments(files);
      attachments := attachments + added;
    }

    /** `handleSubmit`, with `outcome` standing for what `fetch` does. */
    method HandleSubmit(outcome: FetchOutcome) returns (call: Option<Exchange>)
      requires Valid()
      modifies this`messages, this`input, this`attachments
      ensures Valid()
      ensures call.Some? <==> ShouldSend(old(input), old(attachments), apiKey)
      ensures call.None? ==>
                messages == old(messages) && input == old(input) && attachments == old(attachments)
      ensures call.Some? ==>
                var s := Submit(selectedModel, old(messages), old(input), old(attachments), outcome);
                call.value == s.exchange && messages == s.log && input == "" && attachments == []
    {
      var log, draft, pending := messages, input, attachments;
      if !ShouldSend(draft, pending, apiKey) {
        return None;
      }
      var s := Submit(selectedModel, log, draft, pending, outcome);
      input := "";
      attachments := [];
      messages := s.log;
      call := Some(s.exchange);
    }
  }

  // -------------------------------------------------------------- properties

  /** A readable PDF becomes an attachment that holds a buffer; once it is in
      the history, every Anthropic body built from that history throws, so
      with the Anthropic key selected no later submit reaches the network. */
  lemma PdfBlocksAnthropic(f: FileData, earlier: seq<Message>, later: seq<Message>,
                           content: Value, others: seq<Attachment>)
    requires f.mimeType == PdfType && f.contents.Some?
    ensures ProcessFile(f).Ok? && ProcessFile(f).value.data.Buffer?
    ensures var msg := Message(User, content, Some(others + [ProcessFile(f).value]));
            var history := earlier + [msg] + later;
            && BackupProviders.BuildAnthropic(history) == Err(SplitNotAFunction)
            && forall outcome: FetchOutcome ::
                 BackupProviders.MakeApiCall("anthropic", history, [], outcome) == Exchange(None, Err(SplitNotAFunction))
  {
    var att := ProcessFile(f).value;
    var msg := Message(User, content, Some(others + [att]));
    var history := earlier + [msg] + later;
    assert msg.attachments.value[|others|] == att;
    assert !AllDataUrls(msg);
    assert history[|earlier|] == msg;
  }

  /** The selection filter keeps every image type and PDFs, and nothing of
      the current component's text, office or media types. */
  lemma SelectableTypes(mimeType: string)
    ensures mimeType in Attachments.ImageTypes ==> Selectable(mimeType)
    ensures Selectable(PdfType)
    ensures !Selectable("text/plain") && !Selectable("audio/mpeg") && !Selectable("video/mp4")
  {
    if mimeType in Attachments.ImageTypes {
      assert mimeType[..6] == "image/";
    }
    assert "text/plain"[0] != 'i' && "audio/mpeg"[0] != 'i' && "video/mp4"[0] != 'i';
    assert "text/plain"[..6][0] == 't' && "audio/mpeg"[..6][0] == 'a' && "video/mp4"[..6][0] == 'v';
  }

  /** Where the two components differ after a failed call: the current one
      keeps the pending attachments, this one has already dropped them. */
  lemma FailedSubmitAttachments(model: string, key: string, log: seq<Message>, draft: string,
                                pending: seq<Attachment>, outcome: FetchOutcome)
    requires Session.Submit(model, log, draft, pending, outcome).exchange.result.Err?
    ensures Session.Submit(model, log, draft, pending, outcome).pending == pending
    ensures Submit(key, log, draft, pending, outcome).pending == []
  {
  }
}

=== FILE: chat_types.dfy ===
/** The records both versions of the chat component work on: messages,
    attachments, the browser inputs (files, clipboard items, fetch outcomes)
    and the request bodies the provider adapters build, plus the pieces of
    conversation bookkeeping that the two versions share word for word. */
module ChatTypes {
  import opened Wrappers
  import opened Js

  datatype Role = User | Assistant | System

  /** What an attachment's `dataUrl` field holds: the string FileReader's
      `readAsDataURL` produced, or the ArrayBuffer `readAsArrayBuffer` did. */
  datatype Payload = DataUrl(url: string) | Buffer(bytes: seq<bv8>)

  /** `{ name, type, dataUrl, size, content? }`. */
  datatype Attachment = Attachment(
    name: string,
    mimeType: string,
    data: Payload,
    size: nat,
    content: Option<string>)

  /** `{ role, content, attachments? }`; the content of an assistant entry is
      whatever the provider's response path held, so it is a JavaScript value. */
  datatype Message = Message(role: Role, content: Value, attachments: Option<seq<Attachment>>)

  /** What the browser would hand back for one file: the result of
      `readAsDataURL`, of `readAsArrayBuffer`, and `TextDecoder` on the bytes. */
  datatype FileContents = FileContents(dataUrl: string, bytes: seq<bv8>, decoded: string)

  /** A selected `File`; `contents` is None when FileReader signals an error. */
  datatype FileData = FileData(name: string, mimeType: string, size: nat, contents: Option<FileContents>)

  /** A clipboard `DataTransferItem`: its `type` and what `getAsFile()` returns. */
  datatype ClipItem = ClipItem(mimeType: string, file: Option<FileData>)

  /** The body of a response as `response.json()` sees it. */
  datatype Body = Unparsable(syntaxError: string) | Parsed(data: Value)

  /** The outcome of `fetch`: a rejection, or a response. */
  datatype FetchOutcome =
    | NetworkFailure(reason: string)
    | Response(status: nat, statusText: string, body: Body)

  /** `response.ok`. */
  predicate IsOkStatus(status: nat) {
    200 <= status <= 299
  }

  // ------------------------------------------------------------ request bodies

  datatype OpenAIPart = TextPart(text: Value) | ImageUrlPart(url: Payload, detail: string)
  datatype OpenAIContent = PlainContent(text: Value) | PartsContent(parts: seq<OpenAIPart>)
  datatype OpenAIMessage = OpenAIMessage(role: Role, content: OpenAIContent)
  datatype OpenAIBody = OpenAIBody(model: string, messages: seq<OpenAIMessage>, maxTokens: nat)

  datatype AnthropicBlock =
    | TextBlock(text: Value)
    | SourceBlock(kind: string, sourceType: string, mediaType: string, data: Value)
  datatype AnthropicContent = PlainText(text: Value) | Blocks(blocks: seq<AnthropicBlock>)
  datatype AnthropicMessage = AnthropicMessage(role: string, content: AnthropicContent)
  datatype AnthropicBody = AnthropicBody(model: string, messages: seq<AnthropicMessage>, maxTokens: nat)

  datatype GeminiPart = GeminiText(text: Value) | InlineData(mimeType: string, data: Value)
  datatype GeminiContent = GeminiContent(role: string, parts: seq<GeminiPart>)
  datatype GeminiBody = GeminiBody(contents: seq<GeminiContent>)

  datatype RequestBody =
    | OpenAIRequest(openai: OpenAIBody)
    | AnthropicRequest(anthropic: AnthropicBody)
    | GeminiRequest(gemini: GeminiBody)

  /** The TypeError `att.dataUrl.split(',')` throws when `dataUrl` is an
      ArrayBuffer, in V8's wording. */
  const SplitNotAFunction := "att.dataUrl.split is not a function"

  /** `att.dataUrl.split(',')[1]`. */
  function Base64Data(att: Attachment): (r: Result<Value>)
    ensures r.Ok? <==> att.data.DataUrl?
    ensures r.Err? ==> r.error == SplitNotAFunction
    ensures r.Ok? ==> r.value == SecondField(att.data.url)
  {
    match att.data
    case DataUrl(url) => Ok(SecondField(url))
    case Buffer(_) => Err(SplitNotAFunction)
  }

  // --------------------------------------------------- shared bookkeeping

  /** `prev.filter((_, i) => i !== index)`. */
  function Without<T>(s: seq<T>, index: int): (r: seq<T>)
    ensures 0 <= index < |s| ==> r == s[..index] + s[index + 1..]
    ensures !(0 <= index < |s|) ==> r == s
  {
    if s == [] then []
    else
      var last := s[|s| - 1];
      var front := Without(s[..|s| - 1], index);
      if index == |s| - 1 then front else front + [last]
  }

  /** The submit guard: there is something to send and an API key is set. */
  function ShouldSend(input: string, pending: seq<Attachment>, apiKey: string): (r: bool)
    ensures r <==> ((exists i :: 0 <= i < |input| && !IsJsSpace(input[i])) || |pending| > 0) && apiKey != ""
  {
    (Trim(input) != "" || |pending| > 0) && apiKey != ""
  }

  /** The user entry a submit appends; it carries a copy of the pending
      attachments only when there are some. */
  function UserMessage(input: string, pending: seq<Attachment>): (m: Message)
    ensures m.role == User && m.content == Str(input)
    ensures m.attachments.Some? <==> |pending| > 0
    ensures m.attachments.Some? ==> m.attachments.value == pending
  {
    Message(User, Str(input), if |pending| > 0 then Some(pending) else None)
  }

  /** The entry a submit appends after the call: the reply as an assistant
      entry, or the error text behind "Error: " as a system entry. */
  function Answer(reply: Result<Value>): (m: Message)
    ensures m.role == (if reply.Ok? then Assistant else System)
    ensures reply.Ok? ==> m.content == reply.value
    ensures reply.Err? ==> m.content == Str("Error: " + reply.error)
    ensures m.attachments.None?
  {
    match reply
    case Ok(v) => Message(Assistant, v, None)
    case Err(e) => Message(System, Str("Error: " + e), None)
  }

  /** A log built only by submits: user entries at even positions, each
      followed by exactly one assistant or system entry. */
  ghost predicate Paired(log: seq<Message>) {
    |log| % 2 == 0 && forall i :: 0 <= i < |log| ==> (log[i].role == User <==> i % 2 == 0)
  }

  lemma PairedExtend(log: seq<Message>, question: Message, reply: Message)
    requires Paired(log)
    requires question.role == User && reply.role != User
    ensures Paired(log + [question, reply])
  {
  }
}

=== FILE: dispatch.dfy ===
/** `makeApiCall` of the current chat component: resolve the provider, build
    the body, send it, and turn the response into a reply or an error text.
    The outcome of `fetch` is an input; the call reports whether a request
    would have been sent and what it carried. */
module Dispatch {
  import opened Wrappers
  import opened Js
  import opened ChatTypes
  import opened Providers

  const NetworkErrorText := "Network error: Please check your internet connection and API key"
  const ParseErrorText := "Failed to parse response: Invalid API response"
  const CallFailedPrefix := "API call failed: "

  /** The request handed to `fetch`; the endpoint and headers follow from the provider. */
  datatype Request = Request(provider: Provider, body: RequestBody)

  /** What one call did: the request it sent, if any, and its reply or error text. */
  datatype Exchange = Exchange(sent: Option<Request>, result: Result<Value>)

  /** `data.error?.message || data.message || \`Status ${status}\``, thrown as
      an Error; reading `data.error` throws when `data` is null. */
  function StatusError(data: Value, status: nat): (r: Result<string>)
    ensures data.Null? || data.Undefined? <==> r.Err?
    ensures data.Obj? && Truthy(GetOptional(Lookup(data.fields, "error"), "message")) ==>
              r == Ok(ErrorMessage(GetOptional(Lookup(data.fields, "error"), "message")))
    ensures data.Obj? && !Truthy(GetOptional(Lookup(data.fields, "error"), "message"))
              && Truthy(Lookup(data.fields, "message")) ==>
              r == Ok(ErrorMessage(Lookup(data.fields, "message")))
    ensures r.Ok? && !Truthy(GetOptional(Get(data, "error").value, "message"))
              && !Truthy(Get(data, "message").value) ==>
              r.value == "Status " + NatToString(status)
  {
    var err :- Get(data, "error");
    var errMessage := GetOptional(err, "message");
    if Truthy(errMessage) then Ok(ErrorMessage(errMessage)) else MessageOrStatus(data, status)
  }

  /** `data.message || \`Status ${status}\``. */
  function MessageOrStatus(data: Value, status: nat): (r: Result<string>)
    ensures r.Err? <==> data.Undefined? || data.Null?
    ensures data.Obj? && Truthy(Lookup(data.fields, "message")) ==> r == Ok(ErrorMessage(Lookup(data.fields, "message")))
    ensures data.Obj? && !Truthy(Lookup(data.fields, "message")) ==> r == Ok("Status " + NatToString(status))
    ensures !data.Obj? && r.Ok? ==> r.value == "Status " + NatToString(status)
  {
    var message :- Get(data, "message");
    Ok(if Truthy(message) then ErrorMessage(message) else "Status " + NatToString(status))
  }

  /** What happens once the request is on its way: the text of the inner
      error, or the extracted reply. */
  function Receive(p: Provider, outcome: FetchOutcome): (r: Result<Value>)
    ensures outcome.NetworkFailure? ==> r == Err(NetworkErrorText)
    ensures outcome.Response? && outcome.body.Unparsable? ==> r == Err(ParseErrorText)
    ensures outcome.Response? && outcome.body.Parsed? && !IsOkStatus(outcome.status) ==>
              r.Err? && r.error == (match StatusError(outcome.body.data, outcome.status)
                                    case Ok(m) => m case Err(e) => e)
    ensures outcome.Response? && outcome.body.Parsed? && IsOkStatus(outcome.status) ==>
              r == Extract(p, outcome.body.data)
  {
    match outcome
    case NetworkFailure(_) => Err(NetworkErrorText)
    case Response(status, _, body) =>
      match body
      case Unparsable(_) => Err(ParseErrorText)
      case Parsed(data) =>
        if !IsOkStatus(status) then
          match StatusError(data, status)
          case Ok(m) => Err(m)
          case Err(e) => Err(e)
        else Extract(p, data)
  }

  /** Every error leaves `makeApiCall` behind the "API call failed: " prefix. */
  function Wrapped(r: Result<Value>): (w: Result<Value>)
    ensures w.Ok? <==> r.Ok?
    ensures r.Ok? ==> w == r
    ensures r.Err? ==> w.error == CallFailedPrefix + r.error
  {
    match r
    case Ok(v) => Ok(v)
    case Err(e) => Err(CallFailedPrefix + e)
  }

  function MakeApiCall(model: string, history: seq<Message>, pending: seq<Attachment>,
                       outcome: FetchOutcome): (x: Exchange)
    ensures x.sent.Some? <==> Resolve(model).Some? && Build(Resolve(model).value, history, pending, model).Ok?
    ensures x.sent.Some? ==>
              x.sent.value == Request(Resolve(model).value, Build(Resolve(model).value, history, pending, model).value)
    ensures x.sent.None? ==> x.result.Err?
    ensures x.result.Err? ==> StartsWith(x.result.error, CallFailedPrefix)
    ensures Resolve(model).None? ==> x.result == Wrapped(Err(ReadError("undefined", "generatePrompt")))
    ensures Resolve(model).Some? && Build(Resolve(model).value, history, pending, model).Err? ==>
              x.result == Wrapped(Err(Build(Resolve(model).value, history, pending, model).error))
    ensures x.sent.Some? ==> x.result == Wrapped(Receive(x.sent.value.provider, outcome))
  {
    match Resolve(model)
    case None => Exchange(None, Wrapped(Err(ReadError("undefined", "generatePrompt"))))
    case Some(p) =>
      match Build(p, history, pending, model)
      case Err(e) => Exchange(None, Wrapped(Err(e)))
      case Ok(body) => Exchange(Some(Request(p, body)), Wrapped(Receive(p, outcome)))
  }

  // -------------------------------------------------------------- properties

  /** A model id with none of the three prefixes never reaches the network:
      the body builder of the missing adapter throws inside the `try`. */
  lemma UnknownModelIsNotSent(model: string, history: seq<Message>, pending: seq<Attachment>,
                              outcome: FetchOutcome)
    requires !StartsWith(model, "gpt") && !StartsWith(model, "claude") && !StartsWith(model, "gemini")
    ensures MakeApiCall(model, history, pending, outcome)
            == Exchange(None, Err(CallFailedPrefix + "Cannot read properties of undefined (reading 'generatePrompt')"))
  {
  }

  /** The id the component starts with and the listed `chatgpt-4o-latest`
      both fail that way. */
  lemma UnresolvableSelections(history: seq<Message>, pending: seq<Attachment>, outcome: FetchOutcome)
    ensures MakeApiCall(InitialModel, history, pending, outcome).sent.None?
    ensures MakeApiCall("chatgpt-4o-latest", history, pending, outcome).sent.None?
  {
    ListedOptionsResolve(OpenAI, 0);
  }

  /** Once the body is built, a rejected `fetch` yields the fixed network text. */
  lemma NetworkFailureText(model: string, history: seq<Message>, pending: seq<Attachment>, reason: string)
    requires Resolve(model).Some? && Build(Resolve(model).value, history, pending, model).Ok?
    ensures MakeApiCall(model, history, pending, NetworkFailure(reason)).result
            == Err(CallFailedPrefix + NetworkErrorText)
  {
  }

  /** A body that does not parse yields the parse text, even on an error status:
      the parse runs before the status check. */
  lemma ParseFailureWins(model: string, history: seq<Message>, pending: seq<Attachment>,
                         status: nat, statusText: string, syntaxError: string)
    requires Resolve(model).Some? && Build(Resolve(model).value, history, pending, model).Ok?
    ensures MakeApiCall(model, history, pending, Response(status, statusText, Unparsable(syntaxError))).result
            == Err(CallFailedPrefix + ParseErrorText)
  {
  }

  /** On an error status the text comes from `error.message` when truthy,
      else from a truthy top-level `message`, else from the status code. */
  lemma StatusErrorPrecedence(p: Provider, fields: seq<(string, Value)>, status: nat, statusText: string)
    requires !IsOkStatus(status)
    ensures var r := Receive(p, Response(status, statusText, Parsed(Obj(fields))));
            var errMessage := GetOptional(Lookup(fields, "error"), "message");
            var message := Lookup(fields, "message");
            && (Truthy(errMessage) ==> r == Err(ErrorMessage(errMessage)))
            && (!Truthy(errMessage) && Truthy(message) ==> r == Err(ErrorMessage(message)))
            && (!Truthy(errMessage) && !Truthy(message) ==> r == Err("Status " + NatToString(status)))
  {
  }

  /** The Anthropic extractor raises an embedded error even on a success status. */
  lemma AnthropicEmbeddedError(fields: seq<(string, Value)>, status: nat, statusText: string)
    requires IsOkStatus(status) && Truthy(Lookup(fields, "error"))
    ensures Receive(Anthropic, Response(status, statusText, Parsed(Obj(fields))))
            == Err(ErrorMessage(GetOptional(Lookup(fields, "error"), "message")))
  {
  }

  /** A 429 whose body is `{"error":{"message":"rate limited"}}` surfaces the
      provider's own words, not the status code. */
  lemma RateLimitedScenario(model: string, history: seq<Message>, pending: seq<Attachment>)
    requires Resolve(model).Some? && Build(Resolve(model).value, history, pending, model).Ok?
    ensures MakeApiCall(model, history, pending,
              Response(429, "Too Many Requests",
                Parsed(Obj([("error", Obj([("message", Str("rate limited"))]))])))).result
            == Err(CallFailedPrefix + "rate limited")
  {
    var inner := Obj([("message", Str("rate limited"))]);
    var data := Obj([("error", inner)]);
    assert Lookup(data.fields, "error") == inner;
    assert GetOptional(inner, "message") == Str("rate limited");
    assert StatusError(data, 429) == Ok("rate limited");
    var outcome := Response(429, "Too Many Requests", Parsed(data));
    assert Receive(Resolve(model).value, outcome) == Err("rate limited");
  }

  /** With a success status and a well-shaped envelope, the reply is the value
      at the provider's response path. */
  lemma SuccessfulReply(model: string, history: seq<Message>, pending: seq<Attachment>,
                        status: nat, statusText: string, data: Value)
    requires Resolve(model).Some? && Build(Resolve(model).value, history, pending, model).Ok?
    requires IsOkStatus(status) && Extract(Resolve(model).value, data).Ok?
    ensures MakeApiCall(model, history, pending, Response(status, statusText, Parsed(data))).result
            == Extract(Resolve(model).value, data)
  {
  }
}

=== FILE: js.dfy ===
/** The slice of JavaScript semantics the chat component leans on: values as
    `JSON.parse` and the component produce them, truthiness, property reads
    that throw on `undefined`/`null`, `String(v)`, `new Error(v).message`,
    and the string methods `startsWith`, `endsWith`, `split(',')[1]` and `trim`. */
module Js {
  import opened Wrappers

  /** A JavaScript value. Numbers are integers here; objects keep their
      members in source order, and a repeated key is read as its last
      occurrence, as `JSON.parse` does. */
  datatype Value =
    | Undefined
    | Null
    | Bool(b: bool)
    | Num(n: int)
    | Str(s: string)
    | Arr(items: seq<Value>)
    | Obj(fields: seq<(string, Value)>)

  /** The falsy values are undefined, null, false, 0 and the empty string. */
  predicate Truthy(v: Value) {
    match v
    case Undefined => false
    case Null => false
    case Bool(b) => b
    case Num(n) => n != 0
    case Str(s) => s != ""
    case Arr(_) => true
    case Obj(_) => true
  }

  /** Exactly five values are falsy; every array and object is truthy. */
  lemma FalsyValues(v: Value)
    ensures !Truthy(v) <==> v == Undefined || v == Null || v == Bool(false) || v == Num(0) || v == Str("")
  {
  }

  // ---------------------------------------------------------------- strings

  predicate StartsWith(s: string, prefix: string) {
    |prefix| <= |s| && s[..|prefix|] == prefix
  }

  predicate EndsWith(s: string, suffix: string) {
    |suffix| <= |s| && s[|s| - |suffix|..] == suffix
  }

  /** `startsWith` and `endsWith` compare character by character. */
  lemma StartsEndsWithChars(s: string, t: string)
    ensures StartsWith(s, t) <==> |t| <= |s| && forall i :: 0 <= i < |t| ==> s[i] == t[i]
    ensures EndsWith(s, t) <==> |t| <= |s| && forall i :: 0 <= i < |t| ==> s[|s| - |t| + i] == t[i]
  {
    if |t| <= |s| && (forall i :: 0 <= i < |t| ==> s[|s| - |t| + i] == t[i]) {
      assert s[|s| - |t|..] == t;
    }
  }

  function Digit(d: nat): (c: char)
    requires d < 10
    ensures '0' <= c <= '9'
    ensures c as int - '0' as int == d
  {
    ('0' as int + d) as char
  }

  /** Decimal numeral of `n`, as template literals and `String(n)` write it. */
  function NatToString(n: nat): (r: string)
    ensures |r| >= 1
    ensures forall i :: 0 <= i < |r| ==> '0' <= r[i] <= '9'
    ensures |r| > 1 ==> r[0] != '0'
    ensures n < 10 <==> |r| == 1
  {
    if n < 10 then [Digit(n)] else NatToString(n / 10) + [Digit(n % 10)]
  }

  /** The number a string of decimal digits spells, read left to right. */
  function DecimalValue(r: string): nat
    requires forall i :: 0 <= i < |r| ==> '0' <= r[i] <= '9'
  {
    if r == [] then 0 else 10 * DecimalValue(r[..|r| - 1]) + (r[|r| - 1] as int - '0' as int)
  }

  /** The numeral `NatToString` writes spells `n` back. */
  lemma {:induction false} NatToStringValue(n: nat)
    ensures DecimalValue(NatToString(n)) == n
  {
    if n >= 10 {
      var r := NatToString(n);
      assert r[..|r| - 1] == NatToString(n / 10);
      NatToStringValue(n / 10);
    }
  }

  function IntToString(i: int): (r: string)
    ensures (i < 0) <==> (|r| > 0 && r[0] == '-')
    ensures i >= 0 ==> r == NatToString(i)
    ensures i < 0 ==> r[1..] == NatToString(-i)
  {
    if i < 0 then "-" + NatToString(-i) else NatToString(i)
  }

  /** First index at or after `from` holding `c`. */
  function IndexOfFrom(s: string, c: char, from: nat): (r: Option<nat>)
    requires from <= |s|
    ensures r.Some? ==> from <= r.value < |s| && s[r.value] == c
    ensures r.Some? ==> forall k :: from <= k < r.value ==> s[k] != c
    ensures r.None? ==> forall k :: from <= k < |s| ==> s[k] != c
    decreases |s| - from
  {
    if from == |s| then None
    else if s[from] == c then Some(from)
    else IndexOfFrom(s, c, from + 1)
  }

  /** `s.split(',')[1]`: the text between the first and the second comma
      (or the end), and `undefined` when `s` has no comma at all. */
  function SecondField(s: string): (r: Value)
    ensures r.Undefined? || r.Str?
    ensures r.Undefined? <==> ',' !in s
  {
    match IndexOfFrom(s, ',', 0)
    case None => Undefined
    case Some(i) =>
      match IndexOfFrom(s, ',', i + 1)
      case None => Str(s[i + 1..])
      case Some(j) => Str(s[i + 1..j])
  }

  /** A data URL `data:<header>,<data>` (section 3 of RFC 2397) whose header
      and base64 data hold no comma yields its data from `split(',')[1]`. */
  lemma DataUrlSecondField(header: string, data: string)
    requires ',' !in header && ',' !in data
    ensures SecondField("data:" + header + "," + data) == Str(data)
  {
    var s := "data:" + header + "," + data;
    var i := |"data:" + header|;
    assert s[i] == ',';
    assert forall k :: 0 <= k < i ==> s[k] == ("data:" + header)[k];
    assert IndexOfFrom(s, ',', 0) == Some(i);
    assert forall k :: i + 1 <= k < |s| ==> s[k] == data[k - i - 1];
    assert IndexOfFrom(s, ',', i + 1).None?;
    assert s[i + 1..] == data;
  }

  /** ECMAScript WhiteSpace and LineTerminator code points, the characters
      `String.prototype.trim` removes. */
  predicate IsJsSpace(c: char) {
    c == '\t' || c == '\n' || c == '\U{000B}' || c == '\U{000C}' || c == '\r'
    || c == ' ' || c == '\U{00A0}' || c == '\U{1680}'
    || ('\U{2000}' <= c <= '\U{200A}')
    || c == '\U{2028}' || c == '\U{2029}' || c == '\U{202F}' || c == '\U{205F}'
    || c == '\U{3000}' || c == '\U{FEFF}'
  }

  function TrimStart(s: string): (r: string)
    ensures |r| <= |s| && r == s[|s| - |r|..]
    ensures forall i :: 0 <= i < |s| - |r| ==> IsJsSpace(s[i])
    ensures r != [] ==> !IsJsSpace(r[0])
  {
    if s != [] && IsJsSpace(s[0]) then TrimStart(s[1..]) else s
  }

  function TrimEnd(s: string): (r: string)
    ensures |r| <= |s| && r == s[..|r|]
    ensures forall i :: |r| <= i < |s| ==> IsJsSpace(s[i])
    ensures r != [] ==> !IsJsSpace(r[|r| - 1])
  {
    if s != [] && IsJsSpace(s[|s| - 1]) then TrimEnd(s[..|s| - 1]) else s
  }

  /** `s.trim()`: empty exactly when every character of `s` is white space. */
  function Trim(s: string): (r: string)
    ensures r == "" <==> forall i :: 0 <= i < |s| ==> IsJsSpace(s[i])
    ensures r != "" ==> !IsJsSpace(r[0]) && !IsJsSpace(r[|r| - 1])
  {
    var t := TrimStart(s);
    assert forall i :: |s| - |t| <= i < |s| ==> s[i] == t[i - (|s| - |t|)];
    TrimEnd(t)
  }

  // ----------------------------------------------------------------- values

  /** The text of the TypeError a property read on `undefined` or `null`
      throws, in V8's wording. */
  function ReadError(base: string, key: string): string {
    "Cannot read properties of " + base + " (reading '" + key + "')"
  }

  /** A named member the source reads (`error`, `message`, `choices`, ...):
      not an array index, not `length`. */
  predicate IsMemberName(name: string) {
    name != [] && (('a' <= name[0] <= 'z') || ('A' <= name[0] <= 'Z') || name[0] == '_')
    && name != "length"
  }

  /** The value of the last member named `key`, or undefined. */
  function Lookup(fields: seq<(string, Value)>, key: string): (r: Value)
    ensures (forall i :: 0 <= i < |fields| ==> fields[i].0 != key) ==> r == Undefined
    ensures r != Undefined ==> exists i :: 0 <= i < |fields| && fields[i] == (key, r)
    ensures fields != [] && fields[|fields| - 1].0 == key ==> r == fields[|fields| - 1].1
    ensures (exists i :: 0 <= i < |fields| && fields[i].0 == key) ==>
              exists i :: 0 <= i < |fields| && fields[i].0 == key && r == fields[i].1
                          && forall j :: i < j < |fields| ==> fields[j].0 != key
  {
    if fields == [] then Undefined
    else if fields[|fields| - 1].0 == key then fields[|fields| - 1].1
    else Lookup(fields[..|fields| - 1], key)
  }

  /** `v.name`: throws on undefined and null; only objects have such members. */
  function Get(v: Value, name: string): (r: Result<Value>)
    requires IsMemberName(name)
    ensures r.Err? <==> v.Undefined? || v.Null?
    ensures r.Err? ==> r.error == ReadError(if v.Null? then "null" else "undefined", name)
    ensures r.Ok? && !v.Obj? ==> r.value == Undefined
    ensures v.Obj? ==> r == Ok(Lookup(v.fields, name))
  {
    match v
    case Undefined => Err(ReadError("undefined", name))
    case Null => Err(ReadError("null", name))
    case Obj(fields) => Ok(Lookup(fields, name))
    case _ => Ok(Undefined)
  }

  /** `v?.name`: undefined instead of an exception when `v` is nullish. */
  function GetOptional(v: Value, name: string): (r: Value)
    requires IsMemberName(name)
    ensures v.Undefined? || v.Null? ==> r == Undefined
    ensures !(v.Undefined? || v.Null?) ==> Get(v, name) == Ok(r)
  {
    if v.Undefined? || v.Null? then Undefined else Get(v, name).value
  }

  /** `v[i]`: throws on undefined and null; arrays and strings are indexed,
      an object is read at the key spelled by `i`. */
  function At(v: Value, i: nat): (r: Result<Value>)
    ensures r.Err? <==> v.Undefined? || v.Null?
    ensures v.Arr? && i < |v.items| ==> r == Ok(v.items[i])
    ensures v.Str? && i < |v.s| ==> r == Ok(Str([v.s[i]]))
    ensures (v.Arr? && i >= |v.items|) || (v.Str? && i >= |v.s|) ==> r == Ok(Undefined)
    ensures v.Obj? ==> r == Ok(Lookup(v.fields, NatToString(i)))
    ensures v.Bool? || v.Num? ==> r == Ok(Undefined)
  {
    match v
    case Undefined => Err(ReadError("undefined", NatToString(i)))
    case Null => Err(ReadError("null", NatToString(i)))
    case Arr(items) => Ok(if i < |items| then items[i] else Undefined)
    case Str(s) => Ok(if i < |s| then Str([s[i]]) else Undefined)
    case Obj(fields) => Ok(Lookup(fields, NatToString(i)))
    case _ => Ok(Undefined)
  }

  /** `String(v)`. */
  function ToStr(v: Value): (r: string)
    ensures v.Str? ==> r == v.s
    ensures v.Obj? ==> r == "[object Object]"
    ensures v.Undefined? ==> r == "undefined"
    ensures v.Null? ==> r == "null"
    ensures v.Bool? ==> r == (if v.b then "true" else "false")
    ensures v.Num? ==> r == IntToString(v.n)
    ensures v.Arr? ==> r == JoinItems(v.items)
    decreases v, 1
  {
    match v
    case Undefined => "undefined"
    case Null => "null"
    case Bool(b) => if b then "true" else "false"
    case Num(n) => IntToString(n)
    case Str(s) => s
    case Arr(items) => JoinItems(items)
    case Obj(_) => "[object Object]"
  }

  /** How `join` prints one element: undefined and null as empty, every
      other value as `String(v)`. */
  function JoinPiece(v: Value): (r: string)
    ensures v.Undefined? || v.Null? ==> r == ""
    ensures !(v.Undefined? || v.Null?) ==> r == ToStr(v)
    decreases v, 2
  {
    if v.Undefined? || v.Null? then "" else ToStr(v)
  }

  /** `items.join(',')`: the printed elements with one comma between each
      pair of neighbours. */
  function JoinItems(items: seq<Value>): (r: string)
    ensures items == [] ==> r == ""
    ensures |items| == 1 ==> r == JoinPiece(items[0])
    ensures |items| == 1 && (items[0].Undefined? || items[0].Null?) ==> r == ""
    ensures |items| == 1 && items[0].Str? ==> r == items[0].s
    ensures |items| > 1 ==> r == JoinPiece(items[0]) + "," + JoinItems(items[1..])
    ensures |items| > 1 ==> |r| >= |items| - 1
    decreases items, 0
  {
    if items == [] then ""
    else if |items| == 1 then JoinPiece(items[0])
    else JoinPiece(items[0]) + "," + JoinItems(items[1..])
  }

  /** Joining two strings puts exactly one comma between them. */
  lemma JoinTwoStrings(a: string, b: string)
    ensures JoinItems([Str(a), Str(b)]) == a + "," + b
  {
    assert [Str(a), Str(b)][1..] == [Str(b)];
  }

  /** Appending an element to a non-empty array appends a comma and the
      element's printed form to the joined text. */
  lemma {:induction false} JoinItemsAppend(items: seq<Value>, v: Value)
    requires items != []
    ensures JoinItems(items + [v]) == JoinItems(items) + "," + JoinPiece(v)
    decreases |items|
  {
    var longer := items + [v];
    var head := JoinPiece(items[0]);
    assert longer[0] == items[0];
    if |items| == 1 {
      assert longer[1..] == [v];
      assert JoinItems(longer) == head + "," + JoinItems([v]);
    } else {
      var rest := items[1..];
      assert longer[1..] == rest + [v];
      JoinItemsAppend(rest, v);
      assert JoinItems(longer) == head + "," + (JoinItems(rest) + "," + JoinPiece(v));
      assert JoinItems(items) == head + "," + JoinItems(rest);
    }
  }

  /** `new Error(v).message`: empty for undefined, `String(v)` otherwise. */
  function ErrorMessage(v: Value): (m: string)
    ensures v.Str? ==> m == v.s
    ensures v.Undefined? ==> m == ""
  {
    if v.Undefined? then "" else ToStr(v)
  }
}

=== FILE: math_split.dfy ===
/** `renderMessage`: the message text is split on the regular expression
    `/(\$\$[\s\S]*?\$\$|\$[\s\S]*?\$)/g`, keeping the delimited pieces, and
    each piece is shown as display math, inline math or plain text.

    The split follows `String.prototype.split` with a capturing regular
    expression: from the current position it looks for the leftmost place
    where the pattern matches, emits the text before it and the match, and
    resumes after the match. The pattern matches at `q` exactly when `s[q]`
    is a `$` with another `$` somewhere after it; the first alternative
    (the shortest `$$...$$`) is preferred to the second (the shortest `$...$`). */
module MathSplit {
  import opened Wrappers
  import opened Js

  datatype Segment = Text(text: string) | InlineMath(math: string) | DisplayMath(math: string)

  /** First `j >= from` where `$$` starts. */
  function IndexOfDoubleDollar(s: string, from: nat): (r: Option<nat>)
    requires from <= |s|
    ensures r.Some? ==> from <= r.value && r.value + 1 < |s| && s[r.value] == '$' && s[r.value + 1] == '$'
    ensures r.Some? ==> forall k :: from <= k < r.value ==> !(s[k] == '$' && s[k + 1] == '$')
    ensures r.None? ==> forall k :: from <= k < |s| - 1 ==> !(s[k] == '$' && s[k + 1] == '$')
    decreases |s| - from
  {
    if from + 1 >= |s| then None
    else if s[from] == '$' && s[from + 1] == '$' then Some(from)
    else IndexOfDoubleDollar(s, from + 1)
  }

  /** Whether the pattern matches at `q`. */
  predicate MatchesAt(s: string, q: nat) {
    q < |s| && s[q] == '$' && IndexOfFrom(s, '$', q + 1).Some?
  }

  /** The pattern matches at `q` exactly when `s[q]` is a `$` with another
      `$` somewhere after it. */
  lemma MatchesAtDollars(s: string, q: nat)
    ensures MatchesAt(s, q) <==> q < |s| && s[q] == '$' && exists k :: q < k < |s| && s[k] == '$'
  {
    if q < |s| && s[q] == '$' && IndexOfFrom(s, '$', q + 1).Some? {
      var k := IndexOfFrom(s, '$', q + 1).value;
      assert q < k < |s| && s[k] == '$';
    }
  }

  predicate AtMostOneDollar(t: string) {
    forall j, k :: 0 <= j < k < |t| ==> !(t[j] == '$' && t[k] == '$')
  }

  /** Where the leftmost match in `s[p..]` starts: at the first `$`, if
      another `$` follows it; when none does, no later position matches
      either and the rest of the text holds at most one `$`. */
  function NextMatch(s: string, p: nat): (r: Option<nat>)
    requires p <= |s|
    ensures r.Some? ==> p <= r.value && MatchesAt(s, r.value)
    ensures r.Some? ==> forall k :: p <= k < r.value ==> s[k] != '$'
    ensures r.None? ==> AtMostOneDollar(s[p..])
  {
    match IndexOfFrom(s, '$', p)
    case None => None
    case Some(q) =>
      if MatchesAt(s, q) then Some(q)
      else
        assert AtMostOneDollar(s[p..]) by {
          var t := s[p..];
          forall j, k | 0 <= j < k < |t|
            ensures !(t[j] == '$' && t[k] == '$')
          {
            assert t[j] == s[j + p] && t[k] == s[k + p];
            if t[j] == '$' {
              assert q <= j + p;
            }
          }
        }
        None
  }

  /** The end of the match that starts at `q`. */
  function MatchEnd(s: string, q: nat): (e: nat)
    requires MatchesAt(s, q)
    ensures q + 2 <= e <= |s| && s[e - 1] == '$'
  {
    if q + 1 < |s| && s[q + 1] == '$' && IndexOfDoubleDollar(s, q + 2).Some? then
      IndexOfDoubleDollar(s, q + 2).value + 2
    else
      IndexOfFrom(s, '$', q + 1).value + 1
  }

  /** Both alternatives of the pattern are lazy: `$$` with a later `$$`
      closes at the first such `$$`; otherwise the match closes at the
      first `$` after the opening one. */
  lemma MatchEndIsLazy(s: string, q: nat)
    requires MatchesAt(s, q)
    ensures var e := MatchEnd(s, q);
            q + 1 < |s| && s[q + 1] == '$' && IndexOfDoubleDollar(s, q + 2).Some? ==>
              q + 4 <= e && s[e - 2] == '$'
              && forall k :: q + 2 <= k < e - 2 ==> !(s[k] == '$' && s[k + 1] == '$')
    ensures var e := MatchEnd(s, q);
            !(q + 1 < |s| && s[q + 1] == '$' && IndexOfDoubleDollar(s, q + 2).Some?) ==>
              forall k :: q < k < e - 1 ==> s[k] != '$'
  {
  }

  /** The pieces of `s[p..]`: text, match, text, match, ..., text. */
  function SplitFrom(s: string, p: nat): (parts: seq<string>)
    requires p <= |s|
    ensures |parts| % 2 == 1
    decreases |s| - p
  {
    match NextMatch(s, p)
    case None => [s[p..]]
    case Some(q) =>
      var e := MatchEnd(s, q);
      [s[p..q], s[q..e]] + SplitFrom(s, e)
  }

  /** `s.split(/(\$\$[\s\S]*?\$\$|\$[\s\S]*?\$)/g)`. */
  function Split(s: string): (parts: seq<string>)
    ensures |parts| % 2 == 1
    ensures '$' !in s ==> parts == [s]
  {
    assert '$' !in s ==> NextMatch(s, 0).None? && s[0..] == s by {
      if '$' !in s {
        NoDollarFrom(s, 0);
      }
    }
    SplitFrom(s, 0)
  }

  function Concat(parts: seq<string>): string {
    if parts == [] then "" else parts[0] + Concat(parts[1..])
  }

  lemma {:induction false} ConcatAppend(a: seq<string>, b: seq<string>)
    ensures Concat(a + b) == Concat(a) + Concat(b)
    decreases |a|
  {
    if a == [] {
      assert a + b == b;
    } else {
      assert (a + b)[0] == a[0];
      assert (a + b)[1..] == a[1..] + b;
      ConcatAppend(a[1..], b);
      calc {
        Concat(a + b);
        a[0] + Concat(a[1..] + b);
        a[0] + (Concat(a[1..]) + Concat(b));
        Concat(a) + Concat(b);
      }
    }
  }

  lemma ConcatPair(x: string, y: string, rest: seq<string>)
    ensures Concat([x, y] + rest) == x + y + Concat(rest)
  {
    var parts := [x, y] + rest;
    assert parts[0] == x && parts[1..] == [y] + rest;
    assert ([y] + rest)[0] == y && ([y] + rest)[1..] == rest;
  }

  /** The pieces put back together are the original text. */
  lemma {:induction false} SplitFromConcat(s: string, p: nat)
    requires p <= |s|
    ensures Concat(SplitFrom(s, p)) == s[p..]
    decreases |s| - p
  {
    match NextMatch(s, p)
    case None =>
      assert SplitFrom(s, p) == [s[p..]];
      assert [s[p..]][1..] == [];
    case Some(q) =>
      var e := MatchEnd(s, q);
      assert SplitFrom(s, p) == [s[p..q], s[q..e]] + SplitFrom(s, e);
      SplitFromConcat(s, e);
      ConcatPair(s[p..q], s[q..e], SplitFrom(s, e));
      SliceJoin(s, p, q, e);
  }

  lemma SliceJoin(s: string, p: nat, q: nat, e: nat)
    requires p <= q <= e <= |s|
    ensures s[p..q] + s[q..e] + s[e..] == s[p..]
  {
  }

  lemma SplitConcat(s: string)
    ensures Concat(Split(s)) == s
  {
    SplitFromConcat(s, 0);
    assert s[0..] == s;
  }

  /** A piece the pattern matched: `$` at both ends, at least two long. */
  predicate Delimited(part: string) {
    |part| >= 2 && part[0] == '$' && part[|part| - 1] == '$'
  }

  /** Every piece at an odd position is a match, delimited by `$`. */
  lemma {:induction false} SplitFromMatches(s: string, p: nat)
    requires p <= |s|
    ensures forall i :: 0 <= i < |SplitFrom(s, p)| && i % 2 == 1 ==> Delimited(SplitFrom(s, p)[i])
    decreases |s| - p
  {
    var parts := SplitFrom(s, p);
    match NextMatch(s, p)
    case None =>
    case Some(q) =>
      var e := MatchEnd(s, q);
      var rest := SplitFrom(s, e);
      SplitFromMatches(s, e);
      assert parts == [s[p..q], s[q..e]] + rest;
      assert Delimited(s[q..e]) by {
        assert s[q..e][0] == s[q] && s[q..e][e - q - 1] == s[e - 1];
      }
      DelimitedShift(s[p..q], s[q..e], rest);
  }

  /** Putting a text and a match in front keeps every odd position a match. */
  lemma DelimitedShift(text: string, formula: string, rest: seq<string>)
    requires Delimited(formula)
    requires forall i :: 0 <= i < |rest| && i % 2 == 1 ==> Delimited(rest[i])
    ensures forall i :: 0 <= i < |[text, formula] + rest| && i % 2 == 1 ==> Delimited(([text, formula] + rest)[i])
  {
    var parts := [text, formula] + rest;
    forall i | 0 <= i < |parts| && i % 2 == 1
      ensures Delimited(parts[i])
    {
      if i > 1 {
        assert parts[i] == rest[i - 2] && (i - 2) % 2 == 1;
      }
    }
  }

  /** Every piece at an even position before the last is text without a `$`. */
  lemma {:induction false} SplitFromTexts(s: string, p: nat)
    requires p <= |s|
    ensures forall i :: 0 <= i < |SplitFrom(s, p)| - 1 && i % 2 == 0 ==> '$' !in SplitFrom(s, p)[i]
    decreases |s| - p
  {
    var parts := SplitFrom(s, p);
    match NextMatch(s, p)
    case None =>
    case Some(q) =>
      var e := MatchEnd(s, q);
      var rest := SplitFrom(s, e);
      SplitFromTexts(s, e);
      assert parts == [s[p..q], s[q..e]] + rest;
      var t := s[p..q];
      assert '$' !in t by {
        forall k | 0 <= k < |t| ensures t[k] != '$' {
          assert t[k] == s[k + p];
        }
      }
      forall i | 0 <= i < |parts| - 1 && i % 2 == 0
        ensures '$' !in parts[i]
      {
        if i > 1 {
          assert parts[i] == rest[i - 2] && (i - 2) % 2 == 0;
        } else {
          assert parts[0] == t;
        }
      }
  }

  /** The last piece is the text after the last match, with at most one `$`. */
  lemma {:induction false} SplitFromLast(s: string, p: nat)
    requires p <= |s|
    ensures var parts := SplitFrom(s, p);
            AtMostOneDollar(parts[|parts| - 1])
    decreases |s| - p
  {
    match NextMatch(s, p)
    case None =>
    case Some(q) =>
      var e := MatchEnd(s, q);
      SplitFromLast(s, e);
      var rest := SplitFrom(s, e);
      assert SplitFrom(s, p) == [s[p..q], s[q..e]] + rest;
  }

  /** The pieces alternate: odd positions hold matches, even positions hold
      text; text before a match holds no `$`, and the final text at most one. */
  lemma SplitShape(s: string)
    ensures var parts := Split(s);
            && (forall i :: 0 <= i < |parts| && i % 2 == 1 ==> Delimited(parts[i]))
            && (forall i :: 0 <= i < |parts| - 1 && i % 2 == 0 ==> '$' !in parts[i])
            && AtMostOneDollar(parts[|parts| - 1])
  {
    SplitFromMatches(s, 0);
    SplitFromTexts(s, 0);
    SplitFromLast(s, 0);
  }

  /** `s.slice(start, end)`, with negative positions counted from the end. */
  function Slice(s: string, start: int, end: int): (r: string)
    ensures |r| <= |s|
    ensures 0 <= start <= end <= |s| ==> r == s[start..end]
    ensures 0 <= start && end < 0 && start <= |s| + end ==> r == s[start..|s| + end]
    ensures 0 <= start && end < 0 && start > |s| + end ==> r == ""
    ensures 0 <= end <= start ==> r == ""
  {
    var n := |s|;
    var from := if start < 0 then (if n + start < 0 then 0 else n + start) else (if start < n then start else n);
    var to := if end < 0 then (if n + end < 0 then 0 else n + end) else (if end < n then end else n);
    if from >= to then "" else s[from..to]
  }

  /** One piece, as `renderMessage` classifies it. */
  function Classify(part: string): (seg: Segment)
    ensures seg.DisplayMath? <==> StartsWith(part, "$$") && EndsWith(part, "$$")
    ensures seg.InlineMath? <==>
              !(StartsWith(part, "$$") && EndsWith(part, "$$")) && StartsWith(part, "$") && EndsWith(part, "$")
    ensures seg.Text? ==> seg.text == part
    ensures seg.DisplayMath? ==> (|part| >= 4 && part == "$$" + seg.math + "$$") || (|part| < 4 && seg.math == "")
    ensures seg.InlineMath? ==> (|part| >= 2 && part == "$" + seg.math + "$") || (|part| < 2 && seg.math == "")
  {
    if StartsWith(part, "$$") && EndsWith(part, "$$") then DisplayMath(Slice(part, 2, -2))
    else if StartsWith(part, "$") && EndsWith(part, "$") then InlineMath(Slice(part, 1, -1))
    else Text(part)
  }

  /** `renderMessage(content)`: nothing for empty content, otherwise one
      segment per piece of the split, in order. */
  function Render(content: string): (r: Option<seq<Segment>>)
    ensures r.None? <==> content == ""
    ensures r.Some? ==> |r.value| == |Split(content)|
    ensures r.Some? ==> forall i :: 0 <= i < |r.value| ==> r.value[i] == Classify(Split(content)[i])
  {
    if content == "" then None
    else
      var parts := Split(content);
      Some(seq(|parts|, i requires 0 <= i < |parts| => Classify(parts[i])))
  }

  lemma FirstDollarAt(s: string, from: nat, q: nat)
    requires from <= q < |s| && s[q] == '$'
    requires forall k :: from <= k < q ==> s[k] != '$'
    ensures IndexOfFrom(s, '$', from) == Some(q)
  {
  }

  lemma NoDollarFrom(s: string, from: nat)
    requires from <= |s|
    requires forall k :: from <= k < |s| ==> s[k] != '$'
    ensures IndexOfFrom(s, '$', from) == None
  {
  }

  lemma DoubleDollarAt(s: string, from: nat, j: nat)
    requires from <= j && j + 1 < |s| && s[j] == '$' && s[j + 1] == '$'
    requires forall k :: from <= k < j ==> s[k] != '$'
    ensures IndexOfDoubleDollar(s, from) == Some(j)
  {
  }

  /** A text whose only match is `s[q..e]` splits into three pieces. */
  lemma SplitOneMatch(s: string, q: nat, e: nat)
    requires NextMatch(s, 0) == Some(q) && MatchEnd(s, q) == e
    requires forall k :: e <= k < |s| ==> s[k] != '$'
    ensures Split(s) == [s[..q], s[q..e], s[e..]]
  {
    NoDollarFrom(s, e);
    assert NextMatch(s, e) == None;
    assert SplitFrom(s, e) == [s[e..]];
    assert s[0..q] == s[..q];
  }

  /** A piece without a `$` is text. */
  lemma ClassifyPlain(t: string)
    requires '$' !in t
    ensures Classify(t) == Text(t)
  {
    if |t| > 0 {
      assert t[..1][0] == t[0];
    }
  }

  /** Rendering a text that splits into three known pieces. */
  lemma RenderThree(a: string, part: string, b: string)
    requires '$' !in a && '$' !in b && a + part + b != ""
    requires Split(a + part + b) == [a, part, b]
    ensures Render(a + part + b) == Some([Text(a), Classify(part), Text(b)])
  {
    ClassifyPlain(a);
    ClassifyPlain(b);
    RenderPieces(a + part + b, [a, part, b], [Text(a), Classify(part), Text(b)]);
  }

  /** Rendering a text whose pieces and their classes are known. */
  lemma RenderPieces(s: string, parts: seq<string>, segs: seq<Segment>)
    requires s != "" && Split(s) == parts && |parts| == |segs|
    requires forall i :: 0 <= i < |parts| ==> Classify(parts[i]) == segs[i]
    ensures Render(s) == Some(segs)
  {
    var r := Render(s).value;
    assert |r| == |segs|;
    forall i | 0 <= i < |r| ensures r[i] == segs[i] {
      assert r[i] == Classify(parts[i]);
    }
    assert r == segs;
  }

  /** Text without a `$` is shown as it is. */
  lemma RenderPlainText(s: string)
    requires s != "" && '$' !in s
    ensures Render(s) == Some([Text(s)])
  {
    NoDollarFrom(s, 0);
    assert NextMatch(s, 0) == None;
    assert s[0..] == s;
    assert Split(s) == [s];
    ClassifyPlain(s);
    var r := Render(s).value;
    assert |r| == 1 && r[0] == Classify(Split(s)[0]);
    assert r == [Text(s)];
  }

  /** Where the pieces of `a + part + b` sit, when `a` and `b` hold no `$`. */
  lemma AroundFacts(a: string, part: string, b: string)
    requires '$' !in a && '$' !in b
    ensures var s := a + part + b;
            && (forall k :: 0 <= k < |a| ==> s[k] != '$')
            && (forall k :: |a| + |part| <= k < |s| ==> s[k] != '$')
            && s[..|a|] == a && s[|a|..|a| + |part|] == part && s[|a| + |part|..] == b
            && (forall k :: 0 <= k < |part| ==> s[|a| + k] == part[k])
  {
    var s := a + part + b;
    forall k | 0 <= k < |a| ensures s[k] != '$' { assert s[k] == a[k]; }
    forall k | |a| + |part| <= k < |s| ensures s[k] != '$' { assert s[k] == b[k - |a| - |part|]; }
  }

  lemma InlineMatch(a: string, m: string, b: string)
    requires '$' !in a && '$' !in m && '$' !in b && m != ""
    ensures var s := a + ("$" + m + "$") + b;
            NextMatch(s, 0) == Some(|a|) && MatchEnd(s, |a|) == |a| + |m| + 2
  {
    var part := "$" + m + "$";
    var s := a + part + b;
    var q := |a|;
    var e := q + |m| + 2;
    AroundFacts(a, part, b);
    assert s[q] == part[0] == '$' && s[e - 1] == part[|m| + 1] == '$';
    assert s[q + 1] == part[1] == m[0];
    forall k | q + 1 <= k < e - 1 ensures s[k] != '$' {
      assert s[k] == part[k - q] == m[k - q - 1];
    }
    FirstDollarAt(s, 0, q);
    FirstDollarAt(s, q + 1, e - 1);
  }

  lemma DisplayMatch(a: string, m: string, b: string)
    requires '$' !in a && '$' !in m && '$' !in b
    ensures var s := a + ("$$" + m + "$$") + b;
            NextMatch(s, 0) == Some(|a|) && MatchEnd(s, |a|) == |a| + |m| + 4
  {
    var part := "$$" + m + "$$";
    var s := a + part + b;
    var q := |a|;
    var e := q + |m| + 4;
    AroundFacts(a, part, b);
    assert s[q] == part[0] == '$' && s[q + 1] == part[1] == '$';
    assert s[e - 2] == part[|m| + 2] == '$' && s[e - 1] == part[|m| + 3] == '$';
    forall k | q + 2 <= k < e - 2 ensures s[k] != '$' {
      assert s[k] == part[k - q] == m[k - q - 2];
    }
    DisplayAt(s, 0, q, e);
  }

  /** The leftmost match from `from` is the display formula `s[q..e]`. */
  lemma DisplayAt(s: string, from: nat, q: nat, e: nat)
    requires from <= q && q + 4 <= e <= |s|
    requires s[q] == '$' && s[q + 1] == '$' && s[e - 2] == '$' && s[e - 1] == '$'
    requires forall k :: from <= k < q ==> s[k] != '$'
    requires forall k :: q + 2 <= k < e - 2 ==> s[k] != '$'
    ensures NextMatch(s, from) == Some(q) && MatchEnd(s, q) == e
  {
    FirstDollarAt(s, from, q);
    FirstDollarAt(s, q + 1, q + 1);
    DoubleDollarAt(s, q + 2, e - 2);
  }

  /** `$m$` with a non-empty `m` free of `$` is inline math `m`. */
  lemma ClassifyInline(m: string)
    requires '$' !in m && m != ""
    ensures Classify("$" + m + "$") == InlineMath(m)
  {
    var part := "$" + m + "$";
    assert !StartsWith(part, "$$") by { assert part[..2][1] == m[0]; }
    assert Slice(part, 1, -1) == m;
  }

  /** Text, `$m$`, text (no `$` in any of the three, `m` non-empty) gives
      text, inline math `m`, text. */
  lemma RenderInline(a: string, m: string, b: string)
    requires '$' !in a && '$' !in m && '$' !in b && m != ""
    ensures Render(a + "$" + m + "$" + b) == Some([Text(a), InlineMath(m), Text(b)])
  {
    var part := "$" + m + "$";
    var s := a + part + b;
    assert s == a + "$" + m + "$" + b;
    InlineMatch(a, m, b);
    AroundFacts(a, part, b);
    SplitOneMatch(s, |a|, |a| + |part|);
    ClassifyInline(m);
    RenderThree(a, part, b);
  }

  /** `$$m$$` is display math `m`. */
  lemma ClassifyDisplay(m: string)
    ensures Classify("$$" + m + "$$") == DisplayMath(m)
  {
    var part := "$$" + m + "$$";
    assert StartsWith(part, "$$") && EndsWith(part, "$$");
    assert Slice(part, 2, -2) == m;
  }

  /** Text, `$$m$$`, text (no `$` in any of the three) gives text, display
      math `m`, text. */
  lemma RenderDisplay(a: string, m: string, b: string)
    requires '$' !in a && '$' !in m && '$' !in b
    ensures Render(a + "$$" + m + "$$" + b) == Some([Text(a), DisplayMath(m), Text(b)])
  {
    var part := "$$" + m + "$$";
    var s := a + part + b;
    assert s == a + "$$" + m + "$$" + b;
    DisplayMatch(a, m, b);
    AroundFacts(a, part, b);
    SplitOneMatch(s, |a|, |a| + |part|);
    ClassifyDisplay(m);
    RenderThree(a, part, b);
  }

  /** Two inline formulas: each closes at the first `$` after it opens, so
      the text between them is not swallowed into one match. */
  lemma RenderTwoInline(a: string, m1: string, b: string, m2: string, c: string)
    requires '$' !in a && '$' !in m1 && '$' !in b && '$' !in m2 && '$' !in c
    requires m1 != "" && m2 != ""
    ensures Render(a + ("$" + m1 + "$") + b + ("$" + m2 + "$") + c)
            == Some([Text(a), InlineMath(m1), Text(b), InlineMath(m2), Text(c)])
  {
    var p1 := "$" + m1 + "$";
    var p2 := "$" + m2 + "$";
    var s := a + p1 + b + p2 + c;
    SplitTwoInline(a, m1, b, m2, c);
    ClassifyPlain(a);
    ClassifyPlain(b);
    ClassifyPlain(c);
    ClassifyInline(m1);
    ClassifyInline(m2);
    RenderPieces(s, [a, p1, b, p2, c], [Text(a), InlineMath(m1), Text(b), InlineMath(m2), Text(c)]);
  }

  lemma SplitTwoInline(a: string, m1: string, b: string, m2: string, c: string)
    requires '$' !in a && '$' !in m1 && '$' !in b && '$' !in m2 && '$' !in c
    requires m1 != "" && m2 != ""
    ensures var p1 := "$" + m1 + "$";
            var p2 := "$" + m2 + "$";
            Split(a + p1 + b + p2 + c) == [a, p1, b, p2, c]
  {
    var p1 := "$" + m1 + "$";
    var p2 := "$" + m2 + "$";
    var s := a + p1 + b + p2 + c;
    TwoInlineFacts(a, m1, b, m2, c);
    SplitTwoMatches(s, |a|, |a| + |p1|, |a| + |p1| + |b|, |a| + |p1| + |b| + |p2|);
  }

  /** A text whose only matches are the inline formulas `s[q1..e1]` and `s[q2..e2]`. */
  lemma SplitTwoMatches(s: string, q1: nat, e1: nat, q2: nat, e2: nat)
    requires TwoInlineLayout(s, q1, e1, q2, e2)
    ensures Split(s) == [s[..q1], s[q1..e1], s[e1..q2], s[q2..e2], s[e2..]]
  {
    InlineAt(s, 0, q1, e1);
    InlineAt(s, e1, q2, e2);
    NoDollarFrom(s, e2);
    assert SplitFrom(s, e2) == [s[e2..]];
    assert SplitFrom(s, e1) == [s[e1..q2], s[q2..e2]] + [s[e2..]];
    assert s[0..q1] == s[..q1];
  }

  /** The leftmost match from `from` is the inline formula `s[q..e]`. */
  lemma InlineAt(s: string, from: nat, q: nat, e: nat)
    requires from <= q && q + 2 < e <= |s|
    requires s[q] == '$' && s[q + 1] != '$' && s[e - 1] == '$'
    requires forall k :: from <= k < q ==> s[k] != '$'
    requires forall k :: q < k < e - 1 ==> s[k] != '$'
    ensures NextMatch(s, from) == Some(q) && MatchEnd(s, q) == e
  {
    FirstDollarAt(s, from, q);
    FirstDollarAt(s, q + 1, e - 1);
  }

  /** `s[q1..e1]` and `s[q2..e2]` are `$`-delimited with no other `$` in `s`
      and no `$` right after an opening one. */
  predicate TwoInlineLayout(s: string, q1: nat, e1: nat, q2: nat, e2: nat) {
    && q1 + 2 < e1 <= q2 && q2 + 2 < e2 <= |s|
    && s[q1] == '$' && s[q1 + 1] != '$' && s[e1 - 1] == '$'
    && s[q2] == '$' && s[q2 + 1] != '$' && s[e2 - 1] == '$'
    && (forall k :: 0 <= k < q1 ==> s[k] != '$')
    && (forall k :: q1 < k < e1 - 1 ==> s[k] != '$')
    && (forall k :: e1 <= k < q2 ==> s[k] != '$')
    && (forall k :: q2 < k < e2 - 1 ==> s[k] != '$')
    && (forall k :: e2 <= k < |s| ==> s[k] != '$')
  }

  /** Where the pieces of `a$m1$b$m2$c` sit and which positions hold `$`. */
  lemma TwoInlineFacts(a: string, m1: string, b: string, m2: string, c: string)
    requires '$' !in a && '$' !in m1 && '$' !in b && '$' !in m2 && '$' !in c
    requires m1 != "" && m2 != ""
    ensures var p1 := "$" + m1 + "$";
            var p2 := "$" + m2 + "$";
            var s := a + p1 + b + p2 + c;
            var q1 := |a|;
            var e1 := q1 + |p1|;
            var q2 := e1 + |b|;
            var e2 := q2 + |p2|;
            && TwoInlineLayout(s, q1, e1, q2, e2)
            && s[..q1] == a && s[q1..e1] == p1 && s[e1..q2] == b && s[q2..e2] == p2 && s[e2..] == c
  {
    var p1 := "$" + m1 + "$";
    var p2 := "$" + m2 + "$";
    var s := a + p1 + b + p2 + c;
    var q1 := |a|;
    var e1 := q1 + |p1|;
    var q2 := e1 + |b|;
    var e2 := q2 + |p2|;
    assert s[q1] == p1[0] && s[q1 + 1] == m1[0] && s[e1 - 1] == p1[|p1| - 1];
    assert s[q2] == p2[0] && s[q2 + 1] == m2[0] && s[e2 - 1] == p2[|p2| - 1];
    forall k | 0 <= k < q1 ensures s[k] != '$' { assert s[k] == a[k]; }
    forall k | q1 < k < e1 - 1 ensures s[k] != '$' { assert s[k] == m1[k - q1 - 1]; }
    forall k | e1 <= k < q2 ensures s[k] != '$' { assert s[k] == b[k - e1]; }
    forall k | q2 < k < e2 - 1 ensures s[k] != '$' { assert s[k] == m2[k - q2 - 1]; }
    forall k | e2 <= k < |s| ensures s[k] != '$' { assert s[k] == c[k - e2]; }
  }
}

=== FILE: providers.dfy ===
/** The provider adapters of the current chat component: resolution of a
    model id to a provider by prefix, the three request-body builders and
    the three response extractors. */
module Providers {
  import opened Wrappers
  import opened Js
  import opened ChatTypes

  datatype Provider = OpenAI | Anthropic | Gemini

  /** The model id the component starts with, before any selection. */
  const InitialModel := "openai"

  /** The model ids each provider offers for selection. */
  function Options(p: Provider): seq<string> {
    match p
    case OpenAI => ["gpt-4o", "chatgpt-4o-latest"]
    case Anthropic => ["claude-2", "claude-3-5-sonnet-latest"]
    case Gemini => ["gemini-1.5-pro"]
  }

  /** The prefix tests of `makeApiCall`, in their order. */
  function Resolve(model: string): (p: Option<Provider>)
    ensures p == Some(OpenAI) <==> StartsWith(model, "gpt")
    ensures p == Some(Anthropic) <==> StartsWith(model, "claude")
    ensures p == Some(Gemini) <==> StartsWith(model, "gemini")
    ensures p.None? <==> !StartsWith(model, "gpt") && !StartsWith(model, "claude") && !StartsWith(model, "gemini")
  {
    PrefixesDisjoint(model);
    if StartsWith(model, "gpt") then Some(OpenAI)
    else if StartsWith(model, "claude") then Some(Anthropic)
    else if StartsWith(model, "gemini") then Some(Gemini)
    else None
  }

  /** The three prefixes exclude one another, so the order of the tests
      never decides anything. */
  lemma PrefixesDisjoint(model: string)
    ensures !(StartsWith(model, "gpt") && StartsWith(model, "claude"))
    ensures !(StartsWith(model, "gpt") && StartsWith(model, "gemini"))
    ensures !(StartsWith(model, "claude") && StartsWith(model, "gemini"))
  {
    if StartsWith(model, "gpt") { assert model[0] == model[..3][0] == 'g'; }
    if StartsWith(model, "claude") { assert model[0] == model[..6][0] == 'c'; }
    if StartsWith(model, "gemini") { assert model[0] == model[..6][0] == 'g' && model[1] == model[..6][1] == 'e'; }
  }

  /** Every listed option resolves to the provider that lists it, except
      `chatgpt-4o-latest`; that one and the initial `openai` resolve to
      nothing. */
  lemma ListedOptionsResolve(p: Provider, i: nat)
    requires i < |Options(p)|
    ensures Options(p)[i] != "chatgpt-4o-latest" ==> Resolve(Options(p)[i]) == Some(p)
    ensures Resolve("chatgpt-4o-latest").None? && Resolve(InitialModel).None?
  {
    var chatgpt := "chatgpt-4o-latest";
    assert chatgpt[..3][0] == 'c' && chatgpt[..6][0] == 'c' && chatgpt[..6][1] == 'h';
    assert InitialModel[..3][0] == 'o' && InitialModel[..6][0] == 'o';
    match p
    case OpenAI => assert StartsWith(Options(p)[0], "gpt");
    case Anthropic => assert StartsWith(Options(p)[i], "claude");
    case Gemini => assert StartsWith(Options(p)[i], "gemini");
  }

  // ------------------------------------------------------------------ OpenAI

  /** `parts` is the text part followed by one high-detail image part per
      attachment, in order. */
  ghost predicate ImageParts(parts: seq<OpenAIPart>, text: Value, atts: seq<Attachment>) {
    && |parts| == |atts| + 1
    && parts[0] == TextPart(text)
    && forall j :: 0 <= j < |atts| ==> parts[j + 1] == ImageUrlPart(atts[j].data, "high")
  }

  function OpenAIEntry(msg: Message): (e: OpenAIMessage)
    ensures e.role == msg.role
    ensures msg.attachments.None? ==> e.content == PlainContent(msg.content)
    ensures msg.attachments.Some? ==>
              e.content.PartsContent? && ImageParts(e.content.parts, msg.content, msg.attachments.value)
  {
    match msg.attachments
    case None => OpenAIMessage(msg.role, PlainContent(msg.content))
    case Some(atts) =>
      OpenAIMessage(msg.role, PartsContent(
        [TextPart(msg.content)] + seq(|atts|, j requires 0 <= j < |atts| => ImageUrlPart(atts[j].data, "high"))))
  }

  /** The OpenAI body: one entry per history message, in order; the pending
      attachments and the requested model id play no part. */
  function BuildOpenAI(history: seq<Message>, pending: seq<Attachment>): (b: OpenAIBody)
    ensures b.model == "gpt-4o" && b.maxTokens == 4096
    ensures |b.messages| == |history|
    ensures forall i :: 0 <= i < |history| ==> b.messages[i].role == history[i].role
    ensures forall i :: 0 <= i < |history| && history[i].attachments.None? ==>
              b.messages[i].content == PlainContent(history[i].content)
    ensures forall i :: 0 <= i < |history| && history[i].attachments.Some? ==>
              b.messages[i].content.PartsContent? &&
              ImageParts(b.messages[i].content.parts, history[i].content, history[i].attachments.value)
  {
    OpenAIBody(
      if |pending| > 0 then "gpt-4o" else "gpt-4o",
      seq(|history|, i requires 0 <= i < |history| => OpenAIEntry(history[i])),
      4096)
  }

  // --------------------------------------------------------------- Anthropic

  function AnthropicSource(att: Attachment): (r: Result<AnthropicBlock>)
    ensures r.Ok? <==> att.data.DataUrl?
    ensures r.Ok? ==> r.value == SourceBlock("image", "base64", att.mimeType, SecondField(att.data.url))
    ensures r.Err? ==> r.error == SplitNotAFunction
  {
    var data :- Base64Data(att);
    Ok(SourceBlock("image", "base64", att.mimeType, data))
  }

  /** `blocks` is the text block followed by one base64 block per attachment. */
  ghost predicate SourceBlocks(blocks: seq<AnthropicBlock>, text: Value, atts: seq<Attachment>) {
    && |blocks| == |atts| + 1
    && blocks[0] == TextBlock(text)
    && forall j :: 0 <= j < |atts| ==>
         atts[j].data.DataUrl? &&
         blocks[j + 1] == SourceBlock("image", "base64", atts[j].mimeType, SecondField(atts[j].data.url))
  }

  /** Whether every attachment of `msg` holds a data URL string. */
  predicate AllDataUrls(msg: Message) {
    msg.attachments.Some? ==> forall j :: 0 <= j < |msg.attachments.value| ==> msg.attachments.value[j].data.DataUrl?
  }

  function AnthropicRole(r: Role): string {
    if r == User then "user" else "assistant"
  }

  /** The Anthropic body: a single entry built from the last history message. */
  function BuildAnthropic(history: seq<Message>, pending: seq<Attachment>, model: string): (r: Result<AnthropicBody>)
    ensures history == [] ==> r == Err(ReadError("undefined", "role"))
    ensures history != [] ==> (r.Ok? <==> AllDataUrls(history[|history| - 1]))
    ensures history != [] && r.Err? ==> r.error == SplitNotAFunction
    ensures r.Ok? ==>
              var last := history[|history| - 1];
              && r.value.model == model && r.value.maxTokens == 4096
              && |r.value.messages| == 1
              && r.value.messages[0].role == (if last.role == User then "user" else "assistant")
              && (last.attachments.None? ==> r.value.messages[0].content == PlainText(last.content))
              && (last.attachments.Some? ==>
                    r.value.messages[0].content.Blocks? &&
                    SourceBlocks(r.value.messages[0].content.blocks, last.content, last.attachments.value))
  {
    if history == [] then Err(ReadError("undefined", "role"))
    else
      var last := history[|history| - 1];
      var role := AnthropicRole(last.role);
      match last.attachments
      case None => Ok(AnthropicBody(model, [AnthropicMessage(role, PlainText(last.content))], 4096))
      case Some(atts) =>
        var blocks :- MapResults(atts, AnthropicSource);
        Ok(AnthropicBody(model, [AnthropicMessage(role, Blocks([TextBlock(last.content)] + blocks))], 4096))
  }

  // ------------------------------------------------------------------ Google

  function GeminiInline(att: Attachment): (r: Result<GeminiPart>)
    ensures r.Ok? <==> att.data.DataUrl?
    ensures r.Ok? ==> r.value == InlineData(att.mimeType, SecondField(att.data.url))
    ensures r.Err? ==> r.error == SplitNotAFunction
  {
    var data :- Base64Data(att);
    Ok(InlineData(att.mimeType, data))
  }

  /** `parts` is the text part followed by one inline-data part per attachment. */
  ghost predicate InlineParts(parts: seq<GeminiPart>, text: Value, atts: seq<Attachment>) {
    && |parts| == |atts| + 1
    && parts[0] == GeminiText(text)
    && forall j :: 0 <= j < |atts| ==>
         atts[j].data.DataUrl? && parts[j + 1] == InlineData(atts[j].mimeType, SecondField(atts[j].data.url))
  }

  function GeminiRole(r: Role): string {
    if r == User then "user" else "model"
  }

  /** The Google body: a single content entry built from the last history message. */
  function BuildGemini(history: seq<Message>, pending: seq<Attachment>): (r: Result<GeminiBody>)
    ensures history == [] ==> r == Err(ReadError("undefined", "role"))
    ensures history != [] ==> (r.Ok? <==> AllDataUrls(history[|history| - 1]))
    ensures history != [] && r.Err? ==> r.error == SplitNotAFunction
    ensures r.Ok? ==>
              var last := history[|history| - 1];
              && |r.value.contents| == 1
              && r.value.contents[0].role == (if last.role == User then "user" else "model")
              && (last.attachments.None? ==> r.value.contents[0].parts == [GeminiText(last.content)])
              && (last.attachments.Some? ==>
                    InlineParts(r.value.contents[0].parts, last.content, last.attachments.value))
  {
    if history == [] then Err(ReadError("undefined", "role"))
    else
      var last := history[|history| - 1];
      var role := GeminiRole(last.role);
      match last.attachments
      case None => Ok(GeminiBody([GeminiContent(role, [GeminiText(last.content)])]))
      case Some(atts) =>
        var parts :- MapResults(atts, GeminiInline);
        Ok(GeminiBody([GeminiContent(role, [GeminiText(last.content)] + parts)]))
  }

  /** `generatePrompt` of the resolved provider. */
  function Build(p: Provider, history: seq<Message>, pending: seq<Attachment>, model: string): (r: Result<RequestBody>)
    ensures p == OpenAI ==> r == Ok(OpenAIRequest(BuildOpenAI(history, pending)))
    ensures p == Anthropic ==> r.Ok? == BuildAnthropic(history, pending, model).Ok?
    ensures p == Anthropic && r.Ok? ==> r.value == AnthropicRequest(BuildAnthropic(history, pending, model).value)
    ensures p == Anthropic && r.Err? ==> r.error == BuildAnthropic(history, pending, model).error
    ensures p == Gemini ==> r.Ok? == BuildGemini(history, pending).Ok?
    ensures p == Gemini && r.Ok? ==> r.value == GeminiRequest(BuildGemini(history, pending).value)
    ensures p == Gemini && r.Err? ==> r.error == BuildGemini(history, pending).error
  {
    match p
    case OpenAI => Ok(OpenAIRequest(BuildOpenAI(history, pending)))
    case Anthropic =>
      var b :- BuildAnthropic(history, pending, model);
      Ok(AnthropicRequest(b))
    case Gemini =>
      var b :- BuildGemini(history, pending);
      Ok(GeminiRequest(b))
  }

  /** The Anthropic and Google bodies depend on the last message alone:
      neither the earlier history nor the pending attachments change them. */
  lemma SingleTurnBodies(earlier1: seq<Message>, earlier2: seq<Message>, last: Message,
                         pending1: seq<Attachment>, pending2: seq<Attachment>, model: string)
    ensures BuildAnthropic(earlier1 + [last], pending1, model) == BuildAnthropic(earlier2 + [last], pending2, model)
    ensures BuildGemini(earlier1 + [last], pending1) == BuildGemini(earlier2 + [last], pending2)
  {
    assert (earlier1 + [last])[|earlier1 + [last]| - 1] == last;
    assert (earlier2 + [last])[|earlier2 + [last]| - 1] == last;
  }

  // -------------------------------------------------------------- extractors

  /** `data.choices[0].message.content`. */
  function ExtractOpenAI(data: Value): (r: Result<Value>)
    ensures data.Null? ==> r == Err(ReadError("null", "choices"))
    ensures !data.Obj? && !data.Null? && !data.Undefined? ==> r == Err(ReadError("undefined", "0"))
  {
    var choices :- Get(data, "choices");
    var first :- At(choices, 0);
    var message :- Get(first, "message");
    Get(message, "content")
  }

  /** `data.content[0].text`, unless `data.error` is truthy, in which case
      the extractor throws `data.error.message` whatever the status was. */
  function ExtractAnthropic(data: Value): (r: Result<Value>)
    ensures data.Null? ==> r == Err(ReadError("null", "error"))
    ensures data.Obj? && Truthy(Lookup(data.fields, "error")) ==>
              r == Err(ErrorMessage(Get(Lookup(data.fields, "error"), "message").value))
    ensures data.Obj? && !Truthy(Lookup(data.fields, "error")) ==> r == AnthropicText(data)
  {
    match Get(data, "error")
    case Err(e) => Err(e)
    case Ok(err) =>
      if Truthy(err) then Err(ErrorMessage(GetOptional(err, "message")))
      else AnthropicText(data)
  }

  /** `data.content[0].text`. */
  function AnthropicText(data: Value): (r: Result<Value>)
    ensures data.Null? ==> r == Err(ReadError("null", "content"))
    ensures !data.Obj? && !data.Null? && !data.Undefined? ==> r == Err(ReadError("undefined", "0"))
    ensures data.Obj? && Lookup(data.fields, "content") == Arr([]) ==> r == Err(ReadError("undefined", "text"))
  {
    var content :- Get(data, "content");
    var first :- At(content, 0);
    Get(first, "text")
  }

  /** `data.candidates[0].content.parts[0].text`. */
  function ExtractGemini(data: Value): (r: Result<Value>)
    ensures data.Null? ==> r == Err(ReadError("null", "candidates"))
    ensures !data.Obj? && !data.Null? && !data.Undefined? ==> r == Err(ReadError("undefined", "0"))
  {
    var candidates :- Get(data, "candidates");
    var first :- At(candidates, 0);
    var content :- Get(first, "content");
    var parts :- Get(content, "parts");
    var part :- At(parts, 0);
    Get(part, "text")
  }

  /** `extractResponse` of the resolved provider. */
  function Extract(p: Provider, data: Value): (r: Result<Value>)
    ensures p == OpenAI ==> r == ExtractOpenAI(data)
    ensures p == Anthropic ==> r == ExtractAnthropic(data)
    ensures p == Gemini ==> r == ExtractGemini(data)
  {
    match p
    case OpenAI => ExtractOpenAI(data)
    case Anthropic => ExtractAnthropic(data)
    case Gemini => ExtractGemini(data)
  }

  /** On any object body whose `choices` array has an object first
      element with an object `message`, the reply is that message's
      `content`, whatever other members the body holds. */
  lemma OpenAIReplyPath(fields: seq<(string, Value)>, choices: seq<Value>,
                        choice: seq<(string, Value)>, message: seq<(string, Value)>)
    requires Lookup(fields, "choices") == Arr(choices) && |choices| > 0 && choices[0] == Obj(choice)
    requires Lookup(choice, "message") == Obj(message)
    ensures ExtractOpenAI(Obj(fields)) == Ok(Lookup(message, "content"))
  {
  }

  /** An empty `choices` array throws reading `message` of undefined. */
  lemma OpenAINoChoices(fields: seq<(string, Value)>)
    requires Lookup(fields, "choices") == Arr([])
    ensures ExtractOpenAI(Obj(fields)) == Err(ReadError("undefined", "message"))
  {
  }

  /** On any object body with a falsy `error` whose `content` array has an
      object first block, the reply is that block's `text`. */
  lemma AnthropicReplyPath(fields: seq<(string, Value)>, blocks: seq<Value>, block: seq<(string, Value)>)
    requires !Truthy(Lookup(fields, "error"))
    requires Lookup(fields, "content") == Arr(blocks) && |blocks| > 0 && blocks[0] == Obj(block)
    ensures ExtractAnthropic(Obj(fields)) == Ok(Lookup(block, "text"))
  {
  }

  /** On any object body following `candidates[0].content.parts[0]` through
      objects and non-empty arrays, the reply is that part's `text`. */
  lemma GeminiReplyPath(fields: seq<(string, Value)>, candidates: seq<Value>, candidate: seq<(string, Value)>,
                        content: seq<(string, Value)>, parts: seq<Value>, part: seq<(string, Value)>)
    requires Lookup(fields, "candidates") == Arr(candidates) && |candidates| > 0 && candidates[0] == Obj(candidate)
    requires Lookup(candidate, "content") == Obj(content)
    requires Lookup(content, "parts") == Arr(parts) && |parts| > 0 && parts[0] == Obj(part)
    ensures ExtractGemini(Obj(fields)) == Ok(Lookup(part, "text"))
  {
  }
}

=== FILE: session.dfy ===
/** The state of the current chat component and the handlers that change
    it: the conversation log, the draft text, the API key, the selected
    model id and the pending attachments. */
module Session {
  import opened Wrappers
  import opened Js
  import opened ChatTypes
  import opened Providers
  import opened Dispatch
  import opened Attachments

  class ChatSession {
    var messages: seq<Message>
    var input: string
    var apiKey: string
    var selectedModel: string
    var attachments: seq<Attachment>

    /** Every log this component builds alternates user entries with the
        reply or error entry their submit appended. */
    ghost predicate Valid()
      reads this
    {
      Paired(messages)
    }

    /** The initial state: empty log, empty draft, no key, `openai` selected. */
    constructor()
      ensures messages == [] && input == "" && apiKey == "" && attachments == []
      ensures selectedModel == InitialModel
      ensures Valid()
    {
      messages := [];
      input := "";
      apiKey := "";
      selectedModel := InitialModel;
      attachments := [];
    }

    method SetInput(text: string)
      modifies this`input
      ensures input == text
    {
      input := text;
    }

    method SetApiKey(key: string)
      modifies this`apiKey
      ensures apiKey == key
    {
      apiKey := key;
    }

    method SelectModel(model: string)
      modifies this`selectedModel
      ensures selectedModel == model
    {
      selectedModel := model;
    }

    /** `clearHistory`; `confirmed` is the user's answer to the confirmation dialog. */
    method ClearHistory(confirmed: bool)
      requires Valid()
      modifies this`messages
      ensures messages == (if confirmed then [] else old(messages))
      ensures Valid()
    {
      if confirmed {
        messages := [];
      }
    }

    /** `removeAttachment`: drops the entry at `index`; any other index changes nothing. */
    method RemoveAttachment(index: int)
      modifies this`attachments
      ensures attachments == Without(old(attachments), index)
      ensures 0 <= index < |old(attachments)| ==> |attachments| == |old(attachments)| - 1
    {
      attachments := Without(attachments, index);
    }

    /** `handleFileSelect`: the kept files are appended after the pending ones. */
    method HandleFileSelect(files: seq<FileData>)
      modifies this`attachments
      ensures attachments == old(attachments) + Accepted(files)
    {
      var added := CollectAttachments(files);
      attachments := attachments + added;
    }

    /** `handlePaste`: no clipboard items, nothing happens; otherwise each
        readable `image/` item is appended as soon as it is read. */
    method HandlePaste(items: Option<seq<ClipItem>>)
      modifies this`attachments
      ensures items.None? ==> attachments == old(attachments)
      ensures items.Some? ==> attachments == old(attachments) + Pasted(items.value)
    {
      if items.None? {
        return;
      }
      var list := items.value;
      var i := 0;
      while i < |list|
        invariant 0 <= i <= |list|
        invariant attachments == old(attachments) + Pasted(list[..i])
      {
        var item := list[i];
        if StartsWith(item.mimeType, "image/") && item.file.Some? {
          var processed := ProcessFile(item.file.value);
          if processed.Ok? {
            attachments := attachments + [processed.value];
          }
        }
        assert list[..i + 1][..i] == list[..i];
        i := i + 1;
      }
      assert list[..i] == list;
    }

    /** `handleSubmit`, with `outcome` standing for what `fetch` does: when
        the guard lets it through, the state becomes what `Submit` says and
        the draft is cleared. The result is the call, or None when the guard
        stopped the submit. */
    method HandleSubmit(outcome: FetchOutcome) returns (call: Option<Exchange>)
      requires Valid()
      modifies this`messages, this`input, this`attachments
      ensures Valid()
      ensures call.Some? <==> ShouldSend(old(input), old(attachments), apiKey)
      ensures call.None? ==>
                messages == old(messages) && input == old(input) && attachments == old(attachments)
      ensures call.Some? ==>
                var s := Submit(selectedModel, old(messages), old(input), old(attachments), outcome);
                call.value == s.exchange && messages == s.log && input == "" && attachments == s.pending
    {
      var log, draft, pending := messages, input, attachments;
      if !ShouldSend(draft, pending, apiKey) {
        return None;
      }
      var s := Submit(selectedModel, log, draft, pending, outcome);
      input := "";
      messages := s.log;
      attachments := s.pending;
      call := Some(s.exchange);
    }
  }

  /** What a submit that passed the guard leaves behind: the call it made,
      the log and the pending attachments. */
  datatype Submission = Submission(exchange: Exchange, log: seq<Message>, pending: seq<Attachment>)

  /** The submit transition of `handleSubmit`: the user entry goes into the
      log, the call runs on the log including that entry, its reply or error
      follows, and the pending attachments are dropped only when the call
      succeeded. */
  function Submit(model: string, log: seq<Message>, draft: string, pending: seq<Attachment>,
                  outcome: FetchOutcome): (s: Submission)
    ensures s.exchange == MakeApiCall(model, log + [UserMessage(draft, pending)], pending, outcome)
    ensures |s.log| == |log| + 2 && s.log[..|log|] == log
    ensures s.log[|log|] == UserMessage(draft, pending)
    ensures s.log[|log| + 1].role == (if s.exchange.result.Ok? then Assistant else System)
    ensures s.exchange.result.Ok? ==> s.log[|log| + 1].content == s.exchange.result.value
    ensures s.exchange.result.Err? ==> s.log[|log| + 1].content == Str("Error: " + s.exchange.result.error)
    ensures s.log[|log| + 1].attachments.None?
    ensures Paired(log) ==> Paired(s.log)
    ensures s.pending == [] <==> s.exchange.result.Ok? || pending == []
    ensures s.exchange.result.Err? ==> s.pending == pending
  {
    var question := UserMessage(draft, pending);
    var exchange := MakeApiCall(model, log + [question], pending, outcome);
    var answer := Answer(exchange.result);
    assert Paired(log) ==> Paired(log + [question, answer]) by {
      if Paired(log) {
        PairedExtend(log, question, answer);
      }
    }
    assert (log + [question, answer])[..|log|] == log;
    Submission(exchange, log + [question, answer], if exchange.result.Ok? then [] else pending)
  }

  /** A submit whose model id resolves to no provider never reaches the
      network: the log gains the user entry and an "Error: API call failed: "
      system entry, and the pending attachments stay for another try. */
  lemma UnresolvedSubmitKeepsAttachments(model: string, log: seq<Message>, draft: string,
                                         pending: seq<Attachment>, outcome: FetchOutcome)
    requires Resolve(model).None?
    ensures var s := Submit(model, log, draft, pending, outcome);
            && s.exchange.sent.None?
            && s.pending == pending
            && s.log[|log| + 1].role == System
            && StartsWith(s.log[|log| + 1].content.s, "Error: " + CallFailedPrefix)
  {
    var s := Submit(model, log, draft, pending, outcome);
    var text := s.exchange.result.error;
    assert StartsWith(text, CallFailedPrefix);
    assert ("Error: " + text)[..|"Error: " + CallFailedPrefix|] == "Error: " + text[..|CallFailedPrefix|];
  }

  /** A successful call leaves no pending attachments and appends the reply
      as an assistant entry. */
  lemma SuccessfulSubmitClearsAttachments(model: string, log: seq<Message>, draft: string,
                                          pending: seq<Attachment>, outcome: FetchOutcome)
    requires MakeApiCall(model, log + [UserMessage(draft, pending)], pending, outcome).result.Ok?
    ensures var s := Submit(model, log, draft, pending, outcome);
            && s.pending == []
            && s.log[|log| + 1] == Message(Assistant, s.exchange.result.value, None)
  {
  }

  /** A text file is read as an ArrayBuffer. When it is among the attachments
      of a submit to a Claude or Gemini model id, the body builder throws on
      `dataUrl.split`, nothing is sent, and the attachments stay pending. */
  lemma TextFileBlocksSingleTurnProviders(f: FileData, model: string, log: seq<Message>, draft: string,
                                          others: seq<Attachment>, outcome: FetchOutcome)
    requires StartsWith(f.mimeType, "text/") && f.contents.Some?
    requires Resolve(model) == Some(Anthropic) || Resolve(model) == Some(Gemini)
    ensures ProcessFile(f).Ok? && ProcessFile(f).value.data.Buffer?
    ensures var pending := others + [ProcessFile(f).value];
            var s := Submit(model, log, draft, pending, outcome);
            && s.exchange == Exchange(None, Err(CallFailedPrefix + SplitNotAFunction))
            && s.pending == pending
  {
    var pending := others + [ProcessFile(f).value];
    var question := UserMessage(draft, pending);
    var history := log + [question];
    assert history[|history| - 1] == question;
    assert question.attachments.value[|others|].data.Buffer?;
    assert !AllDataUrls(question);
  }
}

=== FILE: wrappers.dfy ===
/** Option and Result, the two failure-compatible wrappers the model uses.
    A Result's error is the text of the JavaScript Error that would be thrown. */
module Wrappers {

  datatype Option<+T> = None | Some(value: T)

  datatype Result<+T> = Ok(value: T) | Err(error: string) {
    predicate IsFailure() {
      Err?
    }

    function PropagateFailure<U>(): Result<U>
      requires Err?
    {
      Err(error)
    }

    function Extract(): T
      requires Ok?
    {
      value
    }
  }

  /** `xs.map(f)` where `f` may throw: the first element whose `f` fails
      aborts the whole map with that element's error. */
  function MapResults<A, B>(xs: seq<A>, f: A -> Result<B>): (r: Result<seq<B>>)
    ensures r.Ok? <==> forall i :: 0 <= i < |xs| ==> f(xs[i]).Ok?
    ensures r.Ok? ==> |r.value| == |xs| && forall i :: 0 <= i < |xs| ==> r.value[i] == f(xs[i]).value
    ensures r.Err? ==> exists k :: 0 <= k < |xs| && f(xs[k]) == Err(r.error)
                                   && forall j :: 0 <= j < k ==> f(xs[j]).Ok?
  {
    if xs == [] then Ok([])
    else
      match f(xs[0])
      case Err(e) => Err(e)
      case Ok(y) =>
        match MapResults(xs[1..], f)
        case Err(e) =>
          assert forall j :: 0 < j < |xs| ==> xs[j] == xs[1..][j - 1];
          Err(e)
        case Ok(ys) =>
          assert forall j :: 0 < j < |xs| ==> xs[j] == xs[1..][j - 1];
          Ok([y] + ys)
  }
}
